=== FILE: README.md ===
# gpbattlebus roster reconciler, modelled in Dafny

gpbattlebus reads a roster of players from a Google spreadsheet and compares
it with the user's Epic/Fortnite friend graph. It sends a friend request to
every roster player who matches no current friend and no pending request, in
either direction. It is also meant to accept incoming friend requests, but in
the code the accept command never runs (see below).
This project models the core of that reconciler and proves what it does.
There is one Dafny module per source file:

- `Js` (js.dfy): the JavaScript primitives the code relies on. These are
  `undefined` as `Option`, truthiness, `trim`, ASCII `toLowerCase`, `split`
  on one character, `join`, `slice(0, end)` and the decimal rendering of a
  count.
- `Records` (records.dfy): the `friend` object (`Profile`), the
  `{ id, friend }` record (`Entry`), the record with a `status` and a
  `reason` (`Tagged`), and the status strings as the datatype `Status`.
- `Common` (common.dfy), for `lib/util/common.mjs`: grouping by status and by
  direction, `len`, the canonical display name and `compareStrings`.
- `Friend` (friend.dfy), for `lib/util/friend.mjs`: `compareFriend`,
  `isExistingFriend` and `findFriendsToAdd`. `findFriendsToAdd` is a `while`
  loop, proved against `ClassifyAll`.
- `Fortnite` (fortnite.dfy), for `lib/util/fortnite.mjs`:
  - the friend collections, built by a push loop;
  - the `pending_` grouping of `createFortniteClient`;
  - `findProfile`;
  - the per-record outcomes of `processFriend`, `processFriendToFind` and
    `processPendingFriend`;
  - the batch maps `addFriend` and `acceptFriend`.

  The remote calls are a `Remote` value. It maps a search prefix to a list
  of users or a thrown error. It maps a profile to the reply of its
  `addFriend()` or `accept()` call: resolved, or rejected with an error name.
- `Google` (google.dfy), for `lib/util/google.mjs`: the sheet id taken out
  of the reference, and the mapping from rows to roster records. The parsed
  rows are an input.
- `Summaries` (summaries.dfy), for `lib/util/summaries.mjs`: the status
  titles, the one-line summaries `"TITLE n | TITLE n"`, and the status column
  of the summary-mode table, as written and corrected (see Findings).
- `Index` (index.dfy), for `lib/index.mjs`: one run after login. It covers:
  - dropping the user's own record;
  - building the search scope;
  - reconciliation;
  - the light overview;
  - the mode-to-command table;
  - the pool and skip rule of `processFriends`;
  - the logout.

Two quirks of the code are proved as properties:
- Roster records never carry `_displayName` (`Google.RosterAliases`,
  `Google.RosterMatch`).
- Reconciliation never produces a `PENDING_INCOMING` group. So the accept
  command always gets an empty pool and never runs
  (`Friend.NoPendingDirectionGroups`, `Index.AcceptNeverRuns`).

Three behaviours of the code shape what is proved:
- `findProfile` takes the first result that has mutual friends *or* that
  `compareFriend` accepts. This is a single `find`, with no preference for
  mutual friends (`Fortnite.NoMutualFirstPreference`).
- `getDisplayName` chooses the display name before trimming it. So a name of
  white space alone gives `""` instead of falling back to the platform
  aliases (`Common.BlankDisplayName`).
- Reconciliation produces MISSING, PENDING and EXISTING, not
  PENDING_INCOMING or PENDING_OUTGOING. An accepted request is reported as
  CURRENT.

## Model

| member | source | states |
|---|---|---|
| Js.Trim | lib/util/google.mjs:20-24 | `trim` removes only white space, on both sides. The result does not start or end with white space, and it is empty exactly when the input is all white space. |
| Js.TrimIdempotent | lib/util/common.mjs:43 | Trimming an already trimmed name changes nothing. |
| Js.TrimOpt | lib/util/google.mjs:20-24 | `?.trim()` is defined exactly when its input is, and then it is the trimmed string. |
| Js.Split | lib/util/google.mjs:12 | `split(":")` gives at least one part. No part holds the separator, and joining the parts with it gives back the input. |
| Js.SplitJoin | lib/util/google.mjs:12 | Splitting undoes joining when no part holds the separator. |
| Js.SliceTo | lib/index.mjs:123 | `slice(0, end)` is a prefix of the list. It has min(end, n) elements, and a negative end counts back from the end. |
| Js.DecimalString | lib/util/summaries.mjs:69 | A count renders as a non-empty string of digits with no leading zero. |
| Js.DecimalRoundTrip | lib/util/summaries.mjs:69 | The rendered count reads back as the count. |
| Js.DecimalStringInjective | lib/util/summaries.mjs:69 | Different counts render differently. |
| Common.WithKey | lib/util/common.mjs:12-13 | One group holds only elements with its key, and no more elements than the input. |
| Common.WithKeyMultiset | lib/util/common.mjs:12-13 | A group holds each element with its key exactly as often as the input does, and nothing else. |
| Common.WithKeyAppend | lib/util/common.mjs:12-13 | Grouping keeps input order: the group of a concatenation is the concatenation of the groups. |
| Common.WithKeyEmpty | lib/util/common.mjs:12-13 | A key no element has gets an empty group. |
| Common.WithKeyAll | lib/util/common.mjs:12-13 | When every element has key k, the group of k is the whole input, in order. |
| Common.Group | lib/util/common.mjs:12-13 | `group` has a key exactly for each key that occurs. Each group holds the elements with that key, in input order. |
| Common.GroupByStatus | lib/util/common.mjs:12-13 | `groupByStatus` has a key exactly for each status that occurs. Each group is the input filtered by that status. |
| Common.GroupByStatusHas | lib/util/common.mjs:12-13 | Every record lands in the group its status names. |
| Common.GroupByStatusOnly | lib/util/common.mjs:12-13 | A group holds only input records of its own status. |
| Common.GroupKeysWithin | lib/util/common.mjs:12-13 | Statuses drawn from a set give group keys drawn from that set. |
| Common.GroupOrEmptyIsWithKey | lib/util/common.mjs:12-13 | The group of a status, or `[]` when it is absent, is the input filtered by that status. |
| Common.GroupPartitionThree | lib/util/common.mjs:12-13 | When every status is one of three, the three groups hold exactly the input as a multiset. Their lengths add up to the input's length. |
| Common.GroupOrEmpty | lib/index.mjs:78-79 | `group || []`: the group when the key is present, otherwise the empty list. |
| Common.GroupByDirection | lib/util/common.mjs:21-22 | `groupByDirection` has a key `prefix + lowercase(direction)` exactly for each direction that occurs. Each group holds the records with that key, in input order. |
| Common.Len | lib/util/common.mjs:30 | `len(arr = [])`: an absent list counts 0, a present one its number of elements. |
| Common.FirstAliasIndex | lib/util/common.mjs:53-56 | `sources.find` gives the first platform, in list order, whose external name is truthy. |
| Common.GetExternalAuthDisplayName | lib/util/common.mjs:52-59 | The result is the truthy external name of the first platform in the order psn, xbl, nintendo, steam, github, twitch. With none, it reads the property named "undefined". |
| Common.GetDisplayName | lib/util/common.mjs:39-44 | A truthy `displayName` wins, trimmed, and the platforms are not consulted. Otherwise the result is the trimmed external name. |
| Common.DisplayNameFallback | lib/util/common.mjs:39-59 | Without a display name, the first platform with a truthy name gives the id, trimmed. |
| Common.BlankDisplayName | lib/util/common.mjs:41-43 | A display name of white space alone gives `""` and never falls back to the platforms. |
| Common.NoDisplayName | lib/util/common.mjs:39-59 | With no name anywhere the id is undefined. |
| Common.CompareStrings | lib/util/common.mjs:110-111 | A match needs both strings truthy and of the same length. A truthy string matches itself and its lower-cased form. |
| Common.CompareStringsSpec | lib/util/common.mjs:110-111 | `compareStrings` is false when either side is undefined or empty. Otherwise it is true exactly when the lower-cased strings are equal. It is symmetric. |
| Friend.CompareFriend | lib/util/friend.mjs:11-32 | Ids equal ignoring case are enough, and so are `_displayName`s. A match always rests on an id, a `_displayName` or a platform name that is truthy on both sides. |
| Friend.AliasOverlapMatches | lib/util/friend.mjs:24-31 | One platform of the prospective record with equal truthy names on both sides makes a match, whatever the ids. |
| Friend.IdMatches | lib/util/friend.mjs:21-31 | Ids equal ignoring case make a match. A record with a truthy id matches itself. |
| Friend.NoSignalNoMatch | lib/util/friend.mjs:11-32 | Different ids, different `_displayName`s and no shared truthy alias give no match. A missing or empty alias contributes nothing. |
| Friend.OnlyProspectiveTags | lib/util/friend.mjs:24 | Only the platforms of the prospective record are compared. Platforms only the existing record has are ignored. |
| Friend.FirstMatchIndex | lib/util/friend.mjs:42-44 | The index of the first element that matches, or the length when none does. |
| Friend.FirstMatchAppend | lib/util/friend.mjs:42-44 | Searching a concatenation finds the first match of the first part if it has one. Otherwise it finds the first match of the second part, placed after the first part. |
| Friend.IsExistingFriend | lib/util/friend.mjs:41-47 | `isExistingFriend` returns the first element, in collection order, that matches. It is undefined exactly when none does. |
| Friend.IsExistingFriendAppend | lib/util/friend.mjs:41-47 | `isExistingFriend` on a concatenation looks in the second part only when the first part has no match. |
| Friend.Classify | lib/util/friend.mjs:60-65 | The status of one record is MISSING, PENDING or EXISTING. |
| Friend.ClassifyRule | lib/util/friend.mjs:60-65 | The status rule, each case in both directions: MISSING exactly when nothing matches; PENDING exactly when the first match has a truthy direction; EXISTING exactly when it has none. |
| Friend.ClassifyAll | lib/util/friend.mjs:59-71 | There is one tagged record per roster record, at the same index. It is the record with its status added and no reason. |
| Friend.FindFriendsToAdd | lib/util/friend.mjs:56-74 | The push loop tags every record in roster order and groups the tags by status. The only keys are MISSING, PENDING and EXISTING. |
| Friend.ReconcileKeys | lib/util/friend.mjs:56-74 | The only group keys of reconciliation are MISSING, PENDING and EXISTING. |
| Friend.ReconcileMembership | lib/util/friend.mjs:67-73 | Every roster record is in the group of its status, with that status added. |
| Friend.ReconcileGroupsOnly | lib/util/friend.mjs:67-73 | Every group holds only roster records, with no reason, under the group's own status. |
| Friend.ReconcileCounts | lib/util/friend.mjs:56-74 | The three groups together hold exactly the tagged roster as a multiset, as many records as the roster has: none lost, none twice. |
| Friend.NoPendingDirectionGroups | lib/util/friend.mjs:61-65 | Reconciliation never produces a PENDING_INCOMING or PENDING_OUTGOING group. |
| Fortnite.CreateFriend | lib/util/fortnite.mjs:17-20 | The record keeps the profile whole. A truthy `displayName`, trimmed, is its id, and any id it has is already trimmed. |
| Fortnite.Rationalised | lib/util/fortnite.mjs:17-20 | There is one `createFriend` record per profile. |
| Fortnite.RationalisedRoundTrip | lib/util/fortnite.mjs:17-34 | The records keep every profile whole and in place. Each id is `getDisplayName` of its profile. |
| Fortnite.CreateFriendCollection | lib/util/fortnite.mjs:28-34 | The `for…of` push loop yields one `createFriend` record per profile, in iteration order. |
| Fortnite.CreateFortniteClient | lib/util/fortnite.mjs:237-255 | The client holds the current friends as records and the pending ones grouped under `"pending_" + direction.toLowerCase()`. |
| Fortnite.PendingKeys | lib/util/fortnite.mjs:239-242 | INCOMING and OUTGOING requests are filed under `pending_incoming` and `pending_outgoing`. |
| Fortnite.FirstCandidateIndex | lib/util/fortnite.mjs:52-57 | The index of the first result that has mutual friends or that `compareFriend` accepts. |
| Fortnite.FindProfile | lib/util/fortnite.mjs:42-67 | Without a truthy id the error is "No search prefix specified" and nothing is found. A throwing search is caught as the error. A found profile comes only from a search that returned. |
| Fortnite.FindProfileFirstCandidate | lib/util/fortnite.mjs:52-63 | A search that returns finds the first candidate, in result order. It finds nothing exactly when no result is a candidate. |
| Fortnite.NoMutualFirstPreference | lib/util/fortnite.mjs:52-57 | A first result that `compareFriend` accepts but that has no mutual friends wins over a second result that has mutual friends. |
| Fortnite.Outcome | lib/util/fortnite.mjs:79-98 | The outcome keeps the record. A resolved call gives the success status and no reason. A rejected call gives the error status (SKIPPED unless given) and the error's name as the reason. |
| Fortnite.ProcessFriend | lib/util/fortnite.mjs:79-98 | The outcome keeps the record. It takes the success status with no reason when the call resolves, and the error status (default SKIPPED) with the error's name when it rejects. The try/catch computes exactly `Fortnite.Outcome`. |
| Fortnite.ProcessFriendToFind | lib/util/fortnite.mjs:107-122 | With no profile found, the roster record comes back SKIPPED, "Profile not found". Otherwise the outcome is about the found record: PENDING_OUTGOING, or SKIPPED with the error name. |
| Fortnite.SearchFailureSkips | lib/util/fortnite.mjs:107-116 | No usable id, or a search that throws, gives SKIPPED with "Profile not found". |
| Fortnite.ProcessPendingFriend | lib/util/fortnite.mjs:130-135 | An accepted request becomes CURRENT. A rejected one becomes SKIPPED with the error's name. |
| Fortnite.AcceptFriend | lib/util/fortnite.mjs:143-144 | There is one outcome per pending record, at the same index. |
| Fortnite.AddFriend | lib/util/fortnite.mjs:152-155 | There is one outcome per roster record, at the same index. |
| Fortnite.AddFriendIsolation | lib/util/fortnite.mjs:152-155 | A record's add outcome depends only on the replies to its own search and request. |
| Fortnite.AcceptFriendIsolation | lib/util/fortnite.mjs:143-144 | A record's accept outcome depends only on its own reply. |
| Google.SheetId | lib/util/google.mjs:12-13 | The sheet id is the whole reference, or a piece with no ':'. |
| Google.SheetIdWhole | lib/util/google.mjs:12-13 | A reference with no ':' is the sheet id. |
| Google.SheetIdSegment | lib/util/google.mjs:12-13 | For `prefix:sheet` or `prefix:sheet:more`, the sheet id is `sheet`. |
| Google.SheetIdEmptySegment | lib/util/google.mjs:12-13 | An empty second segment falls back to the whole reference. |
| Google.RowToFriend | lib/util/google.mjs:19-26 | The friend object has a `displayName` exactly when the row has an Epic Name, and it is that cell trimmed. It has exactly the platforms xbl, psn and nintendo, taken trimmed from the Xbox, PSN and Switch cells, each present exactly when its cell is. Nothing else is set. |
| Google.RowToEntry | lib/util/google.mjs:18-31 | The roster record holds the row's friend object. Its id, when there is one, is non-empty and trimmed. |
| Google.FetchUsernames | lib/util/google.mjs:11-35 | There is one record per row, in row order. The error slot is empty. |
| Google.RosterId | lib/util/google.mjs:18-31 | A roster record's id is the first truthy value among the trimmed Epic Name, PSN, Xbox and Switch cells. |
| Google.ThreeAliases | lib/util/common.mjs:52-59 | With only the three roster platforms, the external name is the first truthy one of psn, xbl and nintendo. |
| Google.RosterMatch | lib/util/google.mjs:19-26 | A roster record matches only by a shared alias or by id, never by `_displayName`. |
| Google.RosterAliases | lib/util/google.mjs:19-26 | A roster record has exactly the platforms xbl, psn and nintendo, and no `_displayName`. |
| Summaries.GetTitle | lib/util/summaries.mjs:20-23 | A status in the title table gets its title. Any other status gets its own name. A title is never empty. |
| Summaries.GetTitleTable | lib/util/summaries.mjs:4-23 | Each status's title. The six in the table are renamed; PENDING and EXISTING come back verbatim. |
| Summaries.Items | lib/util/summaries.mjs:68-69 | There is one summary item per key. |
| Summaries.Summary | lib/util/summaries.mjs:68-69 | No keys give the empty line. One key gives its item alone, with no separator. |
| Summaries.SummaryMissingKey | lib/util/summaries.mjs:68-69 | A key the data lacks counts 0. |
| Summaries.SummaryCons | lib/util/summaries.mjs:68-69 | The items appear in key order, with a vertical-bar separator between consecutive items. |
| Summaries.LightSummary | lib/util/summaries.mjs:62-69 | There are always five items: TOTAL, CURRENT, INCOMING, OUTGOING and MISSING, with their counts, in that order. |
| Summaries.WithKeyCount | lib/util/summaries.mjs:77-80 | A status group has as many records as there are outcomes with that status. |
| Summaries.GroupCount | lib/util/summaries.mjs:77-80 | `len(groupByStatus(outcomes)[s])` counts the outcomes with status s. |
| Summaries.LightExecutionSummary | lib/util/summaries.mjs:77-80 | Only the PENDING_OUTGOING and SKIPPED counts, as OUTGOING and ERROR. |
| Summaries.UncountedOutcome | lib/util/summaries.mjs:77-80 | Outcomes of any other status, CURRENT among them, leave the execution summary unchanged. |
| Summaries.StatusLabelAsWritten | lib/util/summaries.mjs:4-11 | `status[itemStatus]` is defined exactly for the six statuses of the table, and is then their title. |
| Summaries.TableLabelsAsWritten | lib/util/summaries.mjs:37-45 | The status column as written fails exactly when some row has a status the table lacks. Otherwise it has one title per row. |
| Summaries.TableLabels | lib/util/summaries.mjs:20-23 | The corrected status column: one non-empty `getTitle` label per row. |
| Summaries.TableLabelsAgree | lib/util/summaries.mjs:37-45 | Wherever the column as written succeeds, it equals the corrected column. |
| Summaries.DryrunRows | lib/util/summaries.mjs:35 | The rows of `dryrunSummary` are the MISSING, PENDING and EXISTING groups, as many rows as the groups hold. |
| Summaries.DryrunRowsPermute | lib/util/summaries.mjs:35 | Those rows are the reconciled records, rearranged. |
| Summaries.LabelsAsWrittenPermute | lib/util/summaries.mjs:37-45 | Rearranging the rows, as the sort does, does not change whether the column as written fails. |
| Summaries.ReconciledLabelsAsWritten | lib/util/summaries.mjs:4-11 | Among MISSING, PENDING and EXISTING, only MISSING has a title in the table. |
| Summaries.DryrunLabelsAsWritten | lib/util/summaries.mjs:33-45 | Over a reconciliation, the column as written fails exactly when some record is not MISSING. |
| Summaries.SingleRowTable | lib/util/summaries.mjs:35 | A reconciliation of one record tabulates that record alone. |
| Summaries.SingleRowLabels | lib/util/summaries.mjs:41 | One row gets its `getTitle` label. As written, it fails exactly when the table lacks its status. |
| Index.CommandDispatch | lib/index.mjs:32-39 | The table has exactly the modes "auto", "add" and "accept". "add" is add on MISSING, "accept" is accept on PENDING_INCOMING, and "auto" is the "add" entry followed by the "accept" entry, in that table order. "summary" is not in the table. |
| Index.SelfFilter | lib/index.mjs:72-74 | The records with the user's own display name are dropped. Every other record is kept as often as it occurs. |
| Index.SelfFilterOrder | lib/index.mjs:72-74 | The kept records stay in roster order. |
| Index.SelfFilterNoSelf | lib/index.mjs:72-74 | A roster without the user's record comes through whole. |
| Index.SearchScope | lib/index.mjs:76-80 | The scope is the current friends, then the `pending_incoming` group, then the `pending_outgoing` group, as three consecutive segments. An absent group adds nothing. |
| Index.ScopeFirstMatch | lib/index.mjs:76-80 | A roster record is matched to a current friend whenever one matches. Otherwise it is matched to the first matching incoming request, and to an outgoing request only when no current friend or incoming request matches. |
| Index.CurrentFriendWins | lib/index.mjs:76-80 | A record that matches a current friend is matched inside the current segment and is EXISTING, whatever the pending requests hold, when current friends carry no direction. |
| Index.PendingInScope | lib/index.mjs:76-80 | A pending record is in a direction group exactly when its direction key names that group. |
| Index.ScopeMembers | lib/index.mjs:76-80 | A record is in the scope exactly when it is a current friend, or a pending one filed under incoming or outgoing. |
| Index.DirectedRequestsInScope | lib/index.mjs:76-80 | INCOMING and OUTGOING requests are always in the scope. |
| Index.FriendPool | lib/index.mjs:123 | A limit of -1 keeps the whole list. Any other limit gives the prefix `slice(0, limit)`. |
| Index.ProcessFriends | lib/index.mjs:120-156 | The pool is the limited group. Execution is skipped exactly when the pool is empty or on a dry run. Otherwise the command runs on the whole pool, and its outcomes are tallied. |
| Index.AcceptNeverRuns | lib/index.mjs:95-105 | The accept command's pool from reconciliation is always empty, so it never runs. |
| Index.OverviewData | lib/index.mjs:82-87 | POSSIBLE is the kept roster. Every other key counts what reconciliation put under it. |
| Index.OverviewShape | lib/index.mjs:82-87 | The overview shows TOTAL, then 0 for CURRENT, INCOMING and OUTGOING, then the MISSING count. |
| Index.DispatchCommands | lib/index.mjs:95-105 | A mode in the table runs each of its commands on its source group, in table order, then logs out. The code starts the commands concurrently and the model runs them in sequence (see the `Promise.all` line under Left out). Any other mode does nothing. Add steps use the limited MISSING group; accept steps have an empty pool. |
| Index.Survey | lib/index.mjs:53-80 | The sheet id, the roster without the user's record, and its reconciliation against the account's scope. |
| Index.Conclude | lib/index.mjs:82-105 | The overview is the light summary of the reconciliation plus POSSIBLE. "summary" runs no command and tabulates the reconciliation with the corrected status column (see Findings). Otherwise the dispatch goes as above. |
| Index.DryrunSummaryAsWritten | lib/index.mjs:88-93 | Summary mode as written gets through its table exactly when every roster record is MISSING. |
| Index.SummaryModeThrowsOnFriend | lib/index.mjs:88-93 | A roster of one player who is already a friend is EXISTING. Summary mode as written throws on it, and the corrected column reads "EXISTING". |
| Index.Run | lib/index.mjs:53-108 | A failed login reports only the failure. A pending friend without a direction also ends the run as an authentication failure, with the TypeError's message. Otherwise the run covers everything above: survey, overview, the summary-mode table, dispatch and logout. |

## Findings

| source | as written | input that shows it | evidently intended | confidence | as-written member | corrected member |
|---|---|---|---|---|---|---|
| lib/util/summaries.mjs:41 | Summary mode (the default mode) tabulates the reconciliation with `status[itemStatus]`. The status table (lib/util/summaries.mjs:4-11) has no EXISTING or PENDING entry, so destructuring `undefined` throws after the overview is logged. | A roster of one player who is already a current friend: the record is EXISTING (`Index.SummaryModeThrowsOnFriend`). | Every reconciled record is shown, labelled by its status's title or, for EXISTING and PENDING, by the status's own name, as `getTitle` already does. | not executed | Summaries.TableLabelsAsWritten | Summaries.TableLabels |

The model of a run (`Index.Conclude`, `Index.Run`) uses the corrected column.
`Index.DryrunSummaryAsWritten` shows that the code as written gets through
summary mode only when every roster record is MISSING.

## Left out

- bin/cli.mjs (flag parsing, the banner, `process.exit`) is not part of this model; it is command-line plumbing.
- `createClient` and the login in `createFortniteClient` (lib/util/fortnite.mjs:167-229) are not modelled: the credential files, the device-auth event and the prompt. A login is an input that either gives the account's display name, friends and pending friends, or fails with a message.
- The client's `id`, the bound `add`/`accept` functions and `logout` are not modelled as values. The logout of a run is a flag in its report.
- `GoogleSheetParser.parse()` (lib/util/google.mjs:15-16) is a network fetch. Its rows are an input.
- The tables of `generateTableSummary` are not rendered. The model has only the status column of the summary-mode table, unsorted. `dryrunExecutionSummary` and `detailedExecutionSummary` are not modelled: their rows have statuses the table holds. A run records its overview string, the summary-mode status column and each command's tally.
- Index.Run, Index.Conclude, Index.DispatchCommands: `generateTableSummary` sorts rows with `_idA.localeCompare(_idB)` (lib/util/summaries.mjs:38). A row whose id is undefined throws there when the engine's sort passes it as the first argument. Such a row is a roster row with no Epic Name, PSN, Xbox or Switch cell, or a found profile with no name. Which pairs the sort compares depends on the engine. The throw can happen in summary mode (lib/index.mjs:90), in a dry run (lib/index.mjs:136) and after a command (lib/index.mjs:154). In a table mode, `Promise.all` then rejects and `client.logout()` (lib/index.mjs:104) is never reached. The model treats every table as rendered: it reports `Completed`, and `loggedOut` for every table mode.
- `log`, `passwordPrompt`, the `ora` spinners and the headings written to the console are left out: console I/O.
- `Promise.all` is modelled as a sequential map, both for the records of one command and for the commands of a mode, which the code starts together and awaits before logging out. No per-record outcome rejects, so the order of completion does not change any result.
- Remote calls are replies given by a `Remote` value, not real effects. Each search, request or acceptance settles at once.
- Index.FriendPool: the limit is an integer. In the code it is a JavaScript
  number from the command line (bin/cli.mjs:46-49), and `slice` truncates a
  fractional limit and treats NaN as 0 (lib/index.mjs:123). Fractional and
  NaN limits are not modelled.
- `toLowerCase` is modelled on ASCII letters only. Letters outside ASCII are kept as they are.
- JavaScript object lookups that reach the prototype are left out, such as a mode named "constructor". The command table holds only its own three keys.
- A profile whose `externalAuths` is undefined cannot be represented: a
  `Profile` always has an `externalAuths` map. Roster records always have
  one. What the code does with the others:
  - An account friend with no truthy `displayName` makes `createFriend`
    throw (lib/util/common.mjs:58) inside `createFortniteClient`. That call
    sits in the login `try` (lib/index.mjs:53-60), so the run ends as a
    failed authentication.
  - An account friend with a truthy `displayName` makes `compareFriend` throw
    on `authB[source]` during reconciliation, outside any `try`.
  - A search result may make `getDisplayName` or `compareFriend` throw inside
    the `try` of `findProfile` (lib/util/fortnite.mjs:49-66). The record then
    comes back SKIPPED with "Profile not found". Nothing throws when the
    result has a truthy `displayName` and is found before `compareFriend`
    reads it: the `||` at lib/util/fortnite.mjs:56 stops at
    `mutualFriends > 0`, and `find` stops at the first candidate. Such a
    result can be found and sent a request.
- A spreadsheet cell that is not a string is not represented: a `Row` maps
  column names to strings.
- A pending friend without a direction is modelled. `groupByDirection`
  throws on it inside `createFortniteClient`, so `Index.Run` reports an
  authentication failure. The message is the TypeError message Node gives
  for an `undefined` direction. A `null` direction also throws, with a
  message that reads `null` instead; the model folds both into `None` and
  reports the single `MissingDirection` message. Other engines word both
  differently. `Fortnite.CreateFortniteClient` itself
  requires every pending friend to carry a direction.

=== FILE: common.dfy ===
/**
 * lib/util/common.mjs: grouping helpers, the array-length helper, the
 * canonical display name of a friend and the case-insensitive string compare.
 */
module Common {
  import opened Js
  import opened Records

  // ---------------------------------------------------------------------------
  // grouping

  /** The elements of `xs` whose key is `k`, in input order. */
  function WithKey<T(!new), K(==)>(xs: seq<T>, key: T -> K, k: K): (r: seq<T>)
    ensures |r| <= |xs|
    ensures forall x :: x in r ==> key(x) == k
    decreases |xs|
  {
    if xs == [] then []
    else
      var init := xs[..|xs| - 1];
      var x := xs[|xs| - 1];
      assert xs == init + [x];
      var r := WithKey(init, key, k);
      if key(x) == k then r + [x] else r
  }

  /** No element with key `k` means an empty group. */
  lemma {:induction false} WithKeyEmpty<T(!new), K>(xs: seq<T>, key: T -> K, k: K)
    requires forall i :: 0 <= i < |xs| ==> key(xs[i]) != k
    ensures WithKey(xs, key, k) == []
    decreases |xs|
  {
    if xs != [] {
      var init, x := xs[..|xs| - 1], xs[|xs| - 1];
      assert xs == init + [x];
      WithKeyEmpty(init, key, k);
      WithKeySnoc(init, x, key, k);
    }
  }

  /** The group of `k` holds each element of key `k` as often as the input does, and nothing else. */
  lemma {:induction false} WithKeyMultiset<T(!new), K>(xs: seq<T>, key: T -> K, k: K)
    ensures forall x :: multiset(WithKey(xs, key, k))[x] == if key(x) == k then multiset(xs)[x] else 0
    decreases |xs|
  {
    if xs != [] {
      var init, y := xs[..|xs| - 1], xs[|xs| - 1];
      assert xs == init + [y];
      WithKeyMultiset(init, key, k);
      WithKeySnoc(init, y, key, k);
    }
  }

  /** The group of `k` after one more element. */
  lemma WithKeySnoc<T(!new), K>(init: seq<T>, x: T, key: T -> K, k: K)
    ensures WithKey(init + [x], key, k) ==
              if key(x) == k then WithKey(init, key, k) + [x] else WithKey(init, key, k)
  {
    assert (init + [x])[..|init + [x]| - 1] == init;
  }

  /** Filtering a concatenation filters each part: the order of the input is kept. */
  lemma {:induction false} WithKeyAppend<T(!new), K>(xs: seq<T>, ys: seq<T>, key: T -> K, k: K)
    ensures WithKey(xs + ys, key, k) == WithKey(xs, key, k) + WithKey(ys, key, k)
    decreases |ys|
  {
    if ys == [] {
      assert xs + ys == xs;
    } else {
      var init, y := ys[..|ys| - 1], ys[|ys| - 1];
      assert ys == init + [y];
      assert xs + ys == (xs + init) + [y];
      WithKeyAppend(xs, init, key, k);
      WithKeySnoc(xs + init, y, key, k);
      WithKeySnoc(init, y, key, k);
      var a, b := WithKey(xs, key, k), WithKey(init, key, k);
      if key(y) == k {
        assert WithKey(xs + ys, key, k) == (a + b) + [y];
        assert WithKey(ys, key, k) == b + [y];
        assert (a + b) + [y] == a + (b + [y]);
      } else {
        assert WithKey(xs + ys, key, k) == a + b;
        assert WithKey(ys, key, k) == b;
      }
    }
  }

  /** When every element has key `k`, the group of `k` is the whole input. */
  lemma {:induction false} WithKeyAll<T(!new), K>(xs: seq<T>, key: T -> K, k: K)
    requires forall i :: 0 <= i < |xs| ==> key(xs[i]) == k
    ensures WithKey(xs, key, k) == xs
    decreases |xs|
  {
    if xs != [] {
      var init, x := xs[..|xs| - 1], xs[|xs| - 1];
      assert xs == init + [x];
      WithKeyAll(init, key, k);
      WithKeySnoc(init, x, key, k);
    }
  }

  /** Adding one element to a grouping of `init` gives the grouping of `init + [x]`. */
  lemma GroupSnoc<T(!new), K(!new)>(init: seq<T>, x: T, key: T -> K, g: map<K, seq<T>>)
    requires forall k :: k in g <==> exists i :: 0 <= i < |init| && key(init[i]) == k
    requires forall k :: k in g ==> g[k] == WithKey(init, key, k)
    ensures var g' := g[key(x) := (if key(x) in g then g[key(x)] else []) + [x]];
            && (forall k :: k in g' <==> exists i :: 0 <= i < |init + [x]| && key((init + [x])[i]) == k)
            && (forall k :: k in g' ==> g'[k] == WithKey(init + [x], key, k))
  {
    var xs := init + [x];
    var g' := g[key(x) := (if key(x) in g then g[key(x)] else []) + [x]];
    forall k ensures k in g' <==> exists i :: 0 <= i < |xs| && key(xs[i]) == k {
      if k in g' && k != key(x) {
        var i :| 0 <= i < |init| && key(init[i]) == k;
        assert xs[i] == init[i];
      }
      if k == key(x) {
        assert xs[|init|] == x;
      }
      if exists i :: 0 <= i < |xs| && key(xs[i]) == k {
        var i :| 0 <= i < |xs| && key(xs[i]) == k;
        if i < |init| {
          assert xs[i] == init[i];
        }
      }
    }
    forall k | k in g' ensures g'[k] == WithKey(xs, key, k) {
      WithKeySnoc(init, x, key, k);
      if k == key(x) && k !in g {
        WithKeyEmpty(init, key, k);
      }
    }
  }

  /**
   * `group(xs, key)` (Array.prototype.group): one group per key that occurs,
   * holding exactly the elements with that key in input order.
   */
  function Group<T(!new), K(!new,==)>(xs: seq<T>, key: T -> K): (g: map<K, seq<T>>)
    ensures forall k :: k in g <==> exists i :: 0 <= i < |xs| && key(xs[i]) == k
    ensures forall k :: k in g ==> g[k] == WithKey(xs, key, k)
    decreases |xs|
  {
    if xs == [] then map[]
    else
      var init := xs[..|xs| - 1];
      var x := xs[|xs| - 1];
      assert xs == init + [x];
      var g := Group(init, key);
      GroupSnoc(init, x, key, g);
      g[key(x) := (if key(x) in g then g[key(x)] else []) + [x]]
  }

  /**
   * `groupByStatus`: a partition of `results` by `status`, one group per status
   * that occurs, input order kept within each group.
   */
  function GroupByStatus(results: seq<Tagged>): (g: map<Status, seq<Tagged>>)
    ensures forall k :: k in g <==> exists i :: 0 <= i < |results| && results[i].status == k
    ensures forall k :: k in g ==> g[k] == WithKey(results, StatusOf, k)
  {
    Group(results, StatusOf)
  }

  /** Every record lands in the group its status names. */
  lemma GroupByStatusHas(results: seq<Tagged>, i: int)
    requires 0 <= i < |results|
    ensures var g := GroupByStatus(results);
            results[i].status in g && results[i] in g[results[i].status]
  {
    var g := GroupByStatus(results);
    var k := results[i].status;
    assert StatusOf(results[i]) == k;
    WithKeyMultiset(results, StatusOf, k);
    assert multiset(g[k])[results[i]] == multiset(results)[results[i]] > 0;
  }

  /** A group holds only records of its own status, drawn from the input. */
  lemma GroupByStatusOnly(results: seq<Tagged>, k: Status, t: Tagged)
    requires k in GroupByStatus(results) && t in GroupByStatus(results)[k]
    ensures t.status == k && t in results
  {
    WithKeyMultiset(results, StatusOf, k);
    assert multiset(GroupByStatus(results)[k])[t] > 0;
    assert multiset(results)[t] > 0;
  }

  /** Statuses drawn from `allowed` give group keys drawn from `allowed`. */
  lemma GroupKeysWithin(results: seq<Tagged>, allowed: set<Status>)
    requires forall i :: 0 <= i < |results| ==> results[i].status in allowed
    ensures forall k :: k in GroupByStatus(results) ==> k in allowed
  {
  }

  /** `groups[key] || []`. */
  function GroupOrEmpty<K, T>(groups: map<K, seq<T>>, key: K): (r: seq<T>)
    ensures key in groups ==> r == groups[key]
    ensures key !in groups ==> r == []
  {
    OrEmpty(Lookup(groups, key))
  }

  /** Filtering by three keys that cover every element splits `xs` three ways. */
  lemma {:induction false} WithKeyThree<T(!new), K>(xs: seq<T>, key: T -> K, a: K, b: K, c: K)
    requires a != b && b != c && a != c
    requires forall i :: 0 <= i < |xs| ==> key(xs[i]) == a || key(xs[i]) == b || key(xs[i]) == c
    ensures multiset(WithKey(xs, key, a) + WithKey(xs, key, b) + WithKey(xs, key, c)) == multiset(xs)
    decreases |xs|
  {
    if xs != [] {
      var init, x := xs[..|xs| - 1], xs[|xs| - 1];
      assert xs == init + [x];
      WithKeyThree(init, key, a, b, c);
      WithKeySnoc(init, x, key, a);
      WithKeySnoc(init, x, key, b);
      WithKeySnoc(init, x, key, c);
    }
  }

  /** A status that does not occur has the empty group. */
  lemma GroupOrEmptyIsWithKey(results: seq<Tagged>, k: Status)
    ensures GroupOrEmpty(GroupByStatus(results), k) == WithKey(results, StatusOf, k)
  {
    if k !in GroupByStatus(results) {
      WithKeyEmpty(results, StatusOf, k);
    }
  }

  /**
   * When every status is one of three distinct keys, the three groups
   * together hold exactly the records: none lost, none twice.
   */
  lemma GroupPartitionThree(results: seq<Tagged>, a: Status, b: Status, c: Status)
    requires a != b && b != c && a != c
    requires forall i :: 0 <= i < |results| ==>
               results[i].status == a || results[i].status == b || results[i].status == c
    ensures var g := GroupByStatus(results);
            && multiset(GroupOrEmpty(g, a) + GroupOrEmpty(g, b) + GroupOrEmpty(g, c))
               == multiset(results)
            && |GroupOrEmpty(g, a)| + |GroupOrEmpty(g, b)| + |GroupOrEmpty(g, c)| == |results|
  {
    var g := GroupByStatus(results);
    var ga, gb, gc := GroupOrEmpty(g, a), GroupOrEmpty(g, b), GroupOrEmpty(g, c);
    GroupOrEmptyIsWithKey(results, a);
    GroupOrEmptyIsWithKey(results, b);
    GroupOrEmptyIsWithKey(results, c);
    WithKeyThree(results, StatusOf, a, b, c);
    assert multiset(ga + gb + gc) == multiset(results);
    assert |ga + gb + gc| == |multiset(ga + gb + gc)| == |multiset(results)| == |results|;
  }

  /** The key `groupByDirection` files a pending entry under. */
  function DirectionKey(prefix: string, e: Entry): string {
    match e.friend.direction
    case Some(d) => prefix + Lower(d)
    case None => prefix
  }

  /**
   * `groupByDirection(results, prefix)`: groups entries under
   * `prefix + direction.toLowerCase()`.  Every entry must carry a direction
   * (the source calls toLowerCase on it).
   */
  function GroupByDirection(results: seq<Entry>, prefix: string): (g: map<string, seq<Entry>>)
    requires forall i :: 0 <= i < |results| ==> results[i].friend.direction.Some?
    ensures forall k :: k in g <==>
              exists i :: 0 <= i < |results| && prefix + Lower(results[i].friend.direction.value) == k
    ensures forall k, e :: k in g && e in g[k] ==>
              e.friend.direction.Some? && k == prefix + Lower(e.friend.direction.value)
    ensures forall k :: k in g ==> g[k] == WithKey(results, (e: Entry) => DirectionKey(prefix, e), k)
  {
    var key := (e: Entry) => DirectionKey(prefix, e);
    var g := Group(results, key);
    assert forall i :: 0 <= i < |results| ==>
      key(results[i]) == prefix + Lower(results[i].friend.direction.value);
    forall k, e | k in g && e in g[k]
      ensures e.friend.direction.Some? && k == prefix + Lower(e.friend.direction.value)
    {
      WithKeyMultiset(results, key, k);
      assert multiset(results)[e] > 0;
      assert e in results;
    }
    g
  }

  /** A parameter defaulted with `= []` (`friends = []`, `arr = []`): `undefined` becomes the empty list. */
  function OrEmpty<T>(arr: Option<seq<T>>): seq<T> {
    match arr
    case None => []
    case Some(xs) => xs
  }

  /** `len(arr = [])`: the length of an array, 0 for `undefined`. */
  function Len<T>(arr: Option<seq<T>>): (n: nat)
    ensures arr.None? ==> n == 0
    ensures arr.Some? ==> n == |arr.value|
  {
    |OrEmpty(arr)|
  }

  /** `obj[key]` on a grouping: the group, or `undefined`. */
  function Lookup<K, T>(groups: map<K, seq<T>>, key: K): Option<seq<T>> {
    if key in groups then Some(groups[key]) else None
  }

  // ---------------------------------------------------------------------------
  // display names

  /** The platforms consulted, in this order, when a friend has no display name. */
  const Sources: seq<string> := ["psn", "xbl", "nintendo", "steam", "github", "twitch"]

  /** `externalAuths?.[source]?.externalDisplayName`. */
  function ExternalName(auths: map<string, Option<string>>, source: string): Option<string> {
    if source in auths then auths[source] else None
  }

  /** The index of the first source with a truthy external name (`|sources|` if none). */
  function FirstAliasIndex(auths: map<string, Option<string>>, sources: seq<string>): (i: nat)
    ensures i <= |sources|
    ensures forall j :: 0 <= j < i ==> !Truthy(ExternalName(auths, sources[j]))
    ensures i < |sources| ==> Truthy(ExternalName(auths, sources[i]))
  {
    if sources == [] then 0
    else if Truthy(ExternalName(auths, sources[0])) then 0
    else 1 + FirstAliasIndex(auths, sources[1..])
  }

  /**
   * `getExternalAuthDisplayName`: the external name of the first source, in
   * the order of `Sources`, whose name is truthy.  With none, the source reads
   * `externalAuths[undefined]`, that is the property named "undefined".
   */
  function GetExternalAuthDisplayName(auths: map<string, Option<string>>): (r: Option<string>)
    ensures forall i :: 0 <= i < |Sources| && Truthy(ExternalName(auths, Sources[i]))
                        && (forall j :: 0 <= j < i ==> !Truthy(ExternalName(auths, Sources[j])))
                        ==> r == ExternalName(auths, Sources[i]) && Truthy(r)
    ensures (forall i :: 0 <= i < |Sources| ==> !Truthy(ExternalName(auths, Sources[i])))
            ==> r == ExternalName(auths, "undefined")
  {
    var i := FirstAliasIndex(auths, Sources);
    ExternalName(auths, if i < |Sources| then Sources[i] else "undefined")
  }

  /**
   * `getDisplayName`: a truthy `displayName`, trimmed, and otherwise the
   * trimmed external name.  The choice is made before trimming, so a display
   * name of white space alone gives "" and the platforms are not consulted.
   */
  function GetDisplayName(friend: Profile): (r: Option<string>)
    ensures Truthy(friend.displayName) ==> r == Some(Trim(friend.displayName.value))
    ensures !Truthy(friend.displayName) ==>
              r == TrimOpt(GetExternalAuthDisplayName(friend.externalAuths))
  {
    var name := if Truthy(friend.displayName) then friend.displayName
                else GetExternalAuthDisplayName(friend.externalAuths);
    TrimOpt(name)
  }

  /** Without a truthy display name, the first platform with a truthy name supplies the id. */
  lemma DisplayNameFallback(friend: Profile, i: nat)
    requires !Truthy(friend.displayName)
    requires i < |Sources| && Truthy(ExternalName(friend.externalAuths, Sources[i]))
    requires forall j :: 0 <= j < i ==> !Truthy(ExternalName(friend.externalAuths, Sources[j]))
    ensures GetDisplayName(friend) == Some(Trim(ExternalName(friend.externalAuths, Sources[i]).value))
  {
  }

  /** A display name of white space alone gives "", whatever the platforms hold. */
  lemma BlankDisplayName(friend: Profile)
    requires friend.displayName.Some? && friend.displayName.value != ""
    requires forall k :: 0 <= k < |friend.displayName.value| ==> IsSpace(friend.displayName.value[k])
    ensures GetDisplayName(friend) == Some("")
  {
  }

  /** No name anywhere (and no property called "undefined"): no id. */
  lemma NoDisplayName(friend: Profile)
    requires !Truthy(friend.displayName)
    requires forall i :: 0 <= i < |Sources| ==> !Truthy(ExternalName(friend.externalAuths, Sources[i]))
    requires "undefined" !in friend.externalAuths
    ensures GetDisplayName(friend) == None
  {
  }

  // ---------------------------------------------------------------------------
  // string compare

  /** `compareStrings`: both truthy and equal after toLowerCase. */
  function CompareStrings(str1: Option<string>, str2: Option<string>): (r: bool)
    ensures r ==> Truthy(str1) && Truthy(str2) && |str1.value| == |str2.value|
    ensures Truthy(str1) && str2 == str1 ==> r
    ensures Truthy(str1) && str2 == Some(Lower(str1.value)) ==> r
  {
    Truthy(str1) && Truthy(str2) && Lower(str1.value) == Lower(str2.value)
  }

  /** compareStrings is false on `undefined` or "" and otherwise compares lower-cased; it is symmetric. */
  lemma CompareStringsSpec(str1: Option<string>, str2: Option<string>)
    ensures !Truthy(str1) || !Truthy(str2) ==> !CompareStrings(str1, str2)
    ensures Truthy(str1) && Truthy(str2) ==>
              (CompareStrings(str1, str2) <==> Lower(str1.value) == Lower(str2.value))
    ensures CompareStrings(str1, str2) == CompareStrings(str2, str1)
  {
  }
}

=== FILE: fortnite.dfy ===
/**
 * lib/util/fortnite.mjs: turning the client's friend collections into
 * `{ id, friend }` records, grouping pending friends by direction, searching
 * for a roster record's profile, and the per-entity outcomes of the add and
 * accept commands.  The remote calls are the replies of a `Remote`.
 */
module Fortnite {
  import opened Js
  import opened Records
  import opened Common
  import opened Friend

  /**
   * The remote side, as the replies it gives: `client.searchProfiles(prefix)`,
   * `user.addFriend()` and `pendingFriend.accept()`.
   */
  datatype Remote = Remote(
    search: string -> SearchReply,
    add: Profile -> CallReply,
    accept: Profile -> CallReply)

  // ---------------------------------------------------------------------------
  // friend collections

  /** `createFriend`: the profile, kept whole, under the id `getDisplayName` gives it. */
  function CreateFriend(p: Profile): (e: Entry)
    ensures e.friend == p
    ensures Truthy(p.displayName) ==> e.id == Some(Trim(p.displayName.value))
    ensures e.id.Some? ==> Trim(e.id.value) == e.id.value
  {
    var name := if Truthy(p.displayName) then p.displayName
                else GetExternalAuthDisplayName(p.externalAuths);
    TrimIdempotent(if name.Some? then name.value else "");
    Entry(GetDisplayName(p), p)
  }

  /** One `createFriend` record per profile, in iteration order. */
  function Rationalised(source: seq<Profile>): (r: seq<Entry>)
    ensures |r| == |source|
  {
    seq(|source|, i requires 0 <= i < |source| => CreateFriend(source[i]))
  }

  /** The profiles inside a sequence of records. */
  function Profiles(entries: seq<Entry>): (r: seq<Profile>)
    ensures |r| == |entries|
  {
    seq(|entries|, i requires 0 <= i < |entries| => entries[i].friend)
  }

  /**
   * Rationalising keeps every profile whole and in place: the profiles can be
   * read back unchanged, and each record's id is that profile's display name.
   */
  lemma RationalisedRoundTrip(source: seq<Profile>)
    ensures Profiles(Rationalised(source)) == source
    ensures forall i :: 0 <= i < |source| ==> Rationalised(source)[i].id == GetDisplayName(source[i])
  {
    var r := Rationalised(source);
    assert forall i :: 0 <= i < |source| ==> Profiles(r)[i] == source[i];
  }

  /** `createFriendCollection`: builds the records with a push loop over the collection. */
  method CreateFriendCollection(source: seq<Profile>) returns (friends: seq<Entry>)
    ensures friends == Rationalised(source)
  {
    friends := [];
    for i := 0 to |source|
      invariant |friends| == i
      invariant forall j :: 0 <= j < i ==> friends[j] == CreateFriend(source[j])
    {
      friends := friends + [CreateFriend(source[i])];
    }
  }

  /** The `friends` part of the client: current friends, and the pending ones grouped by direction. */
  datatype FriendLists = FriendLists(current: seq<Entry>, pending: map<string, seq<Entry>>)

  /** What `createFortniteClient` returns, minus the bound remote calls. */
  datatype FortniteClient = FortniteClient(displayName: Option<string>, friends: FriendLists)

  /** Every pending friend carries a direction. */
  predicate Directed(pendingFriends: seq<Profile>) {
    forall i :: 0 <= i < |pendingFriends| ==> pendingFriends[i].direction.Some?
  }

  /**
   * `createFortniteClient` after login: the current friends as records, and the
   * pending friends as records grouped under `"pending_" + direction.toLowerCase()`.
   */
  method CreateFortniteClient(displayName: Option<string>, friends: seq<Profile>,
                              pendingFriends: seq<Profile>)
    returns (client: FortniteClient)
    requires Directed(pendingFriends)
    ensures client == FortniteClient(displayName,
                                     FriendLists(Rationalised(friends),
                                                 GroupByDirection(Rationalised(pendingFriends), "pending_")))
  {
    var pendingCollection := CreateFriendCollection(pendingFriends);
    var pending := GroupByDirection(pendingCollection, "pending_");
    var current := CreateFriendCollection(friends);
    client := FortniteClient(displayName, FriendLists(current, pending));
  }

  /** "INCOMING" and "OUTGOING" requests are filed under "pending_incoming" and "pending_outgoing". */
  lemma PendingKeys()
    ensures "pending_" + Lower("INCOMING") == "pending_incoming"
    ensures "pending_" + Lower("OUTGOING") == "pending_outgoing"
  {
    assert Lower("INCOMING") == "incoming";
    assert Lower("OUTGOING") == "outgoing";
  }

  // ---------------------------------------------------------------------------
  // profile search

  const NoSearchPrefix := "No search prefix specified"

  /** A search result is taken when it shares mutual friends, or when compareFriend accepts it. */
  predicate IsCandidate(toFind: Entry, result: Entry) {
    (result.friend.mutualFriends.Some? && result.friend.mutualFriends.value > 0)
    || CompareFriend(toFind, result)
  }

  /** The index of the first candidate among `results` (`|results|` if none). */
  function FirstCandidateIndex(toFind: Entry, results: seq<Entry>): (i: nat)
    ensures i <= |results|
    ensures forall j :: 0 <= j < i ==> !IsCandidate(toFind, results[j])
    ensures i < |results| ==> IsCandidate(toFind, results[i])
  {
    if results == [] then 0
    else if IsCandidate(toFind, results[0]) then 0
    else 1 + FirstCandidateIndex(toFind, results[1..])
  }

  /** `[err, found]` as `findProfile` returns it: an error, and at most one record. */
  datatype ProfileSearch = ProfileSearch(error: Option<string>, found: Option<Entry>)

  /**
   * `findProfile`: without a truthy id there is no search; a throwing search
   * is caught; otherwise the first result that is a candidate, by one `find`.
   */
  function FindProfile(toFind: Entry, search: string -> SearchReply): (r: ProfileSearch)
    ensures !Truthy(toFind.id) ==> r == ProfileSearch(Some(NoSearchPrefix), None)
    ensures Truthy(toFind.id) && search(toFind.id.value).Thrown? ==>
              r == ProfileSearch(Some(search(toFind.id.value).error), None)
    ensures Truthy(toFind.id) && search(toFind.id.value).Results? ==> r.error == None
    ensures r.found.Some? ==> r.error == None && Truthy(toFind.id) && search(toFind.id.value).Results?
  {
    if !Truthy(toFind.id) then ProfileSearch(Some(NoSearchPrefix), None)
    else
      match search(toFind.id.value)
      case Thrown(err) => ProfileSearch(Some(err), None)
      case Results(users) =>
        var results := Rationalised(users);
        var i := FirstCandidateIndex(toFind, results);
        if i < |results| then ProfileSearch(None, Some(results[i])) else ProfileSearch(None, None)
  }

  /**
   * A successful search finds the first result, in the order returned, that
   * has mutual friends or that compareFriend accepts, and finds nothing
   * exactly when no result is such a candidate.
   */
  lemma FindProfileFirstCandidate(toFind: Entry, search: string -> SearchReply)
    requires Truthy(toFind.id) && search(toFind.id.value).Results?
    ensures var users := search(toFind.id.value).users;
            var r := FindProfile(toFind, search);
            && (r.found.None? <==> forall i :: 0 <= i < |users| ==> !IsCandidate(toFind, CreateFriend(users[i])))
            && (r.found.Some? ==>
                  exists i :: 0 <= i < |users| && r.found.value == CreateFriend(users[i])
                              && IsCandidate(toFind, CreateFriend(users[i]))
                              && forall j :: 0 <= j < i ==> !IsCandidate(toFind, CreateFriend(users[j])))
  {
    var users := search(toFind.id.value).users;
    var results := Rationalised(users);
    var i := FirstCandidateIndex(toFind, results);
    assert forall j :: 0 <= j < |users| ==> results[j] == CreateFriend(users[j]);
    if i < |results| {
      assert FindProfile(toFind, search).found.value == CreateFriend(users[i]);
    }
  }

  /**
   * There is no preference for mutual friends: a first result that
   * compareFriend accepts but that has no mutual friends wins over a second
   * result that has some.
   */
  lemma NoMutualFirstPreference(toFind: Entry, search: string -> SearchReply)
    requires Truthy(toFind.id) && search(toFind.id.value).Results?
    requires |search(toFind.id.value).users| >= 2
    requires CompareFriend(toFind, CreateFriend(search(toFind.id.value).users[0]))
    requires !(search(toFind.id.value).users[0].mutualFriends.Some?
               && search(toFind.id.value).users[0].mutualFriends.value > 0)
    requires search(toFind.id.value).users[1].mutualFriends.Some?
             && search(toFind.id.value).users[1].mutualFriends.value > 0
    ensures FindProfile(toFind, search).found == Some(CreateFriend(search(toFind.id.value).users[0]))
  {
    var results := Rationalised(search(toFind.id.value).users);
    assert results[0] == CreateFriend(search(toFind.id.value).users[0]);
  }

  // ---------------------------------------------------------------------------
  // outcomes

  const ProfileNotFound := "Profile not found"

  /**
   * `processFriend`: the record with `status` set to `success` when the call
   * resolves (`reason` absent), or to `error` with the error's name as
   * `reason` when it rejects; `error` defaults to SKIPPED.  This method renders
   * the try/catch; `Outcome` is its functional twin, used by the other members.
   */
  method ProcessFriend(friend: Entry, success: Status, handler: CallReply, error: Status := Skipped)
    returns (outcome: Tagged)
    ensures outcome.entry == friend
    ensures handler.Resolved? ==> outcome.status == success && outcome.reason == None
    ensures handler.Rejected? ==> outcome.status == error && outcome.reason == Some(handler.name)
    ensures outcome == Outcome(friend, success, handler, error)
  {
    var summaryType := success;
    var reason: Option<string> := None;
    if handler.Rejected? {
      reason := Some(handler.name);
      summaryType := error;
    }
    outcome := Tagged(friend, summaryType, reason);
  }

  /** The record `processFriend` builds, as a value. */
  function Outcome(friend: Entry, success: Status, handler: CallReply, error: Status := Skipped): (t: Tagged)
    ensures t.entry == friend
    ensures t.status == (if handler.Resolved? then success else error)
    ensures t.reason.None? <==> handler.Resolved?
    ensures handler.Rejected? ==> t.reason == Some(handler.name)
  {
    match handler
    case Resolved => Tagged(friend, success, None)
    case Rejected(name) => Tagged(friend, error, Some(name))
  }

  /**
   * `processFriendToFind`: with no profile found (none matching, or the search
   * failed) the roster record comes back SKIPPED with reason "Profile not
   * found"; otherwise the found record is sent a friend request, and the
   * outcome is about the found record, PENDING_OUTGOING on success.
   */
  function ProcessFriendToFind(toFind: Tagged, remote: Remote): (r: Tagged)
    ensures FindProfile(toFind.entry, remote.search).found.None? ==>
              r == Tagged(toFind.entry, Skipped, Some(ProfileNotFound))
    ensures FindProfile(toFind.entry, remote.search).found.Some? ==>
              var found := FindProfile(toFind.entry, remote.search).found.value;
              && r.entry == found
              && (remote.add(found.friend).Resolved? ==> r.status == PendingOutgoing && r.reason == None)
              && (remote.add(found.friend).Rejected? ==>
                    r.status == Skipped && r.reason == Some(remote.add(found.friend).name))
    ensures r.status == PendingOutgoing || r.status == Skipped
  {
    match FindProfile(toFind.entry, remote.search).found
    case None => Tagged(toFind.entry, Skipped, Some(ProfileNotFound))
    case Some(found) => Outcome(found, PendingOutgoing, remote.add(found.friend))
  }

  /** With no usable id, or a search that throws, the roster record is skipped as not found. */
  lemma SearchFailureSkips(toFind: Tagged, remote: Remote)
    requires !Truthy(toFind.entry.id) || remote.search(toFind.entry.id.value).Thrown?
    ensures ProcessFriendToFind(toFind, remote) == Tagged(toFind.entry, Skipped, Some(ProfileNotFound))
  {
  }

  /**
   * `processPendingFriend`: the pending record is accepted; CURRENT when that
   * resolves, SKIPPED with the error's name when it rejects.
   */
  function ProcessPendingFriend(pendingFriend: Tagged, remote: Remote): (r: Tagged)
    ensures r.entry == pendingFriend.entry
    ensures remote.accept(pendingFriend.entry.friend).Resolved? ==> r.status == Current && r.reason == None
    ensures remote.accept(pendingFriend.entry.friend).Rejected? ==>
              r.status == Skipped && r.reason == Some(remote.accept(pendingFriend.entry.friend).name)
  {
    Outcome(pendingFriend.entry, Current, remote.accept(pendingFriend.entry.friend))
  }

  /** `acceptFriend`: one outcome per pending record, at the same index. */
  function AcceptFriend(pendingFriends: seq<Tagged>, remote: Remote): (r: seq<Tagged>)
    ensures |r| == |pendingFriends|
    ensures forall i :: 0 <= i < |r| ==> r[i] == ProcessPendingFriend(pendingFriends[i], remote)
  {
    seq(|pendingFriends|, i requires 0 <= i < |pendingFriends| => ProcessPendingFriend(pendingFriends[i], remote))
  }

  /** `addFriend`: one outcome per roster record, at the same index. */
  function AddFriend(friendCollection: seq<Tagged>, remote: Remote): (r: seq<Tagged>)
    ensures |r| == |friendCollection|
    ensures forall i :: 0 <= i < |r| ==> r[i] == ProcessFriendToFind(friendCollection[i], remote)
  {
    seq(|friendCollection|, i requires 0 <= i < |friendCollection| => ProcessFriendToFind(friendCollection[i], remote))
  }

  /**
   * The remote calls made for one roster record get the same replies from
   * both remotes: its search, and a request to any profile that search returns.
   */
  predicate SameRepliesFor(toFind: Tagged, remote: Remote, remote': Remote) {
    Truthy(toFind.entry.id) ==>
      var prefix := toFind.entry.id.value;
      && remote.search(prefix) == remote'.search(prefix)
      && (remote.search(prefix).Results? ==>
            forall p :: p in remote.search(prefix).users ==> remote.add(p) == remote'.add(p))
  }

  /**
   * One record's outcome depends on the replies to its own calls only: other
   * records failing, or succeeding, does not change it.
   */
  lemma AddFriendIsolation(friendCollection: seq<Tagged>, remote: Remote, remote': Remote, k: int)
    requires 0 <= k < |friendCollection|
    requires SameRepliesFor(friendCollection[k], remote, remote')
    ensures AddFriend(friendCollection, remote)[k] == AddFriend(friendCollection, remote')[k]
  {
    var toFind := friendCollection[k];
    if Truthy(toFind.entry.id) && remote.search(toFind.entry.id.value).Results? {
      var users := remote.search(toFind.entry.id.value).users;
      var r := FindProfile(toFind.entry, remote.search);
      assert r == FindProfile(toFind.entry, remote'.search);
      if r.found.Some? {
        FindProfileFirstCandidate(toFind.entry, remote.search);
        var i :| 0 <= i < |users| && r.found.value == CreateFriend(users[i])
                 && IsCandidate(toFind.entry, CreateFriend(users[i]))
                 && forall j :: 0 <= j < i ==> !IsCandidate(toFind.entry, CreateFriend(users[j]));
        assert users[i] in users;
      }
    }
  }

  /** The accept outcome of one pending record depends on its own reply only. */
  lemma AcceptFriendIsolation(pendingFriends: seq<Tagged>, remote: Remote, remote': Remote, k: int)
    requires 0 <= k < |pendingFriends|
    requires remote.accept(pendingFriends[k].entry.friend) == remote'.accept(pendingFriends[k].entry.friend)
    ensures AcceptFriend(pendingFriends, remote)[k] == AcceptFriend(pendingFriends, remote')[k]
  {
  }
}

=== FILE: friend.dfy ===
/**
 * lib/util/friend.mjs: deciding whether two records denote the same person,
 * finding the first existing match, and bucketing the roster by relationship.
 */
module Friend {
  import opened Js
  import opened Records
  import opened Common

  /**
   * Some platform tag of the prospective record carries, on both sides, truthy
   * external names that are equal ignoring case.
   */
  predicate AliasMatch(prospective: Entry, existing: Entry) {
    exists source :: source in prospective.friend.externalAuths &&
      CompareStrings(ExternalName(prospective.friend.externalAuths, source),
                     ExternalName(existing.friend.externalAuths, source))
  }

  /**
   * `compareFriend`: the platform aliases of the prospective record, then the
   * `_displayName` properties, then the ids, each compared with compareStrings.
   * Equal ids or equal `_displayName`s (ignoring case) are each enough, and a
   * match always rests on some name that is truthy on both sides.
   */
  function CompareFriend(prospective: Entry, existing: Entry): (r: bool)
    ensures CompareStrings(prospective.id, existing.id) ==> r
    ensures CompareStrings(prospective.friend.privateDisplayName, existing.friend.privateDisplayName) ==> r
    ensures r ==>
              (Truthy(prospective.id) && Truthy(existing.id))
              || (Truthy(prospective.friend.privateDisplayName) && Truthy(existing.friend.privateDisplayName))
              || exists source :: source in prospective.friend.externalAuths
                                  && Truthy(ExternalName(prospective.friend.externalAuths, source))
                                  && Truthy(ExternalName(existing.friend.externalAuths, source))
  {
    var idMatch := CompareStrings(prospective.id, existing.id);
    var displayNameMatch := CompareStrings(prospective.friend.privateDisplayName,
                                           existing.friend.privateDisplayName);
    AliasMatch(prospective, existing) || displayNameMatch || idMatch
  }

  /** One shared platform alias is enough, whatever the ids say. */
  lemma AliasOverlapMatches(prospective: Entry, existing: Entry, source: string)
    requires source in prospective.friend.externalAuths
    requires CompareStrings(ExternalName(prospective.friend.externalAuths, source),
                            ExternalName(existing.friend.externalAuths, source))
    ensures CompareFriend(prospective, existing)
  {
  }

  /** Ids equal ignoring case are enough; so a record with a truthy id matches itself. */
  lemma IdMatches(prospective: Entry, existing: Entry)
    ensures CompareStrings(prospective.id, existing.id) ==> CompareFriend(prospective, existing)
    ensures Truthy(prospective.id) ==> CompareFriend(prospective, prospective)
  {
  }

  /**
   * With different ids, different `_displayName`s and no tag of the prospective
   * record naming the same truthy alias on both sides, there is no match.  A tag
   * missing, or empty, on either side contributes nothing.
   */
  lemma NoSignalNoMatch(prospective: Entry, existing: Entry)
    requires !CompareStrings(prospective.id, existing.id)
    requires !CompareStrings(prospective.friend.privateDisplayName, existing.friend.privateDisplayName)
    requires forall source :: source in prospective.friend.externalAuths ==>
               !Truthy(ExternalName(prospective.friend.externalAuths, source))
               || !Truthy(ExternalName(existing.friend.externalAuths, source))
               || Lower(ExternalName(prospective.friend.externalAuths, source).value)
                  != Lower(ExternalName(existing.friend.externalAuths, source).value)
    ensures !CompareFriend(prospective, existing)
  {
  }

  /** Only the tags of the prospective record are looked at: the others of the existing record do not matter. */
  lemma OnlyProspectiveTags(prospective: Entry, existing: Entry, other: Entry)
    requires other.id == existing.id
    requires other.friend.privateDisplayName == existing.friend.privateDisplayName
    requires forall source :: source in prospective.friend.externalAuths ==>
               ExternalName(other.friend.externalAuths, source)
               == ExternalName(existing.friend.externalAuths, source)
    ensures CompareFriend(prospective, other) == CompareFriend(prospective, existing)
  {
  }

  /** The index of the first element of `collection` that `friend` matches (`|collection|` if none). */
  function FirstMatchIndex(friend: Entry, collection: seq<Entry>): (i: nat)
    ensures i <= |collection|
    ensures forall j :: 0 <= j < i ==> !CompareFriend(friend, collection[j])
    ensures i < |collection| ==> CompareFriend(friend, collection[i])
  {
    if collection == [] then 0
    else if CompareFriend(friend, collection[0]) then 0
    else 1 + FirstMatchIndex(friend, collection[1..])
  }

  /**
   * Searching a concatenation: the first match of the first part if it has
   * one, and otherwise the first match of the second part, shifted past the
   * first part.
   */
  lemma {:induction false} FirstMatchAppend(friend: Entry, xs: seq<Entry>, ys: seq<Entry>)
    ensures FirstMatchIndex(friend, xs + ys) ==
              if FirstMatchIndex(friend, xs) < |xs| then FirstMatchIndex(friend, xs)
              else |xs| + FirstMatchIndex(friend, ys)
  {
    if xs == [] {
      assert xs + ys == ys;
    } else if !CompareFriend(friend, xs[0]) {
      assert (xs + ys)[0] == xs[0];
      assert (xs + ys)[1..] == xs[1..] + ys;
      FirstMatchAppend(friend, xs[1..], ys);
    }
  }

  /** `isExistingFriend`: the first element of the collection that matches, or `undefined` when none does. */
  function IsExistingFriend(friend: Entry, collection: seq<Entry>): (r: Option<Entry>)
    ensures r.None? <==> forall i :: 0 <= i < |collection| ==> !CompareFriend(friend, collection[i])
    ensures r.Some? ==> exists i :: 0 <= i < |collection| && collection[i] == r.value
                          && CompareFriend(friend, collection[i])
                          && forall j :: 0 <= j < i ==> !CompareFriend(friend, collection[j])
  {
    var i := FirstMatchIndex(friend, collection);
    if i < |collection| then Some(collection[i]) else None
  }

  /** `isExistingFriend` on a concatenation looks in the second part only when the first has no match. */
  lemma IsExistingFriendAppend(friend: Entry, xs: seq<Entry>, ys: seq<Entry>)
    ensures IsExistingFriend(friend, xs + ys) ==
              if IsExistingFriend(friend, xs).Some? then IsExistingFriend(friend, xs)
              else IsExistingFriend(friend, ys)
  {
    FirstMatchAppend(friend, xs, ys);
    var i := FirstMatchIndex(friend, xs);
    if i < |xs| {
      assert (xs + ys)[i] == xs[i];
    } else {
      var j := FirstMatchIndex(friend, ys);
      if j < |ys| {
        assert (xs + ys)[|xs| + j] == ys[j];
      }
    }
  }

  /**
   * The status `findFriendsToAdd` gives one roster record: MISSING with no
   * match, PENDING when the first match has a truthy direction, EXISTING
   * otherwise.
   */
  function Classify(friend: Entry, scope: seq<Entry>): (status: Status)
    ensures status == Missing || status == Pending || status == Existing
  {
    match IsExistingFriend(friend, scope)
    case None => Missing
    case Some(found) => if Truthy(found.friend.direction) then Pending else Existing
  }

  /**
   * The status rule: MISSING exactly when nothing in the scope matches, PENDING
   * exactly when the first match has a truthy direction, EXISTING otherwise.
   */
  lemma ClassifyRule(friend: Entry, scope: seq<Entry>)
    ensures Classify(friend, scope) == Missing <==>
              forall i :: 0 <= i < |scope| ==> !CompareFriend(friend, scope[i])
    ensures Classify(friend, scope) == Pending <==>
              exists i :: 0 <= i < |scope| && CompareFriend(friend, scope[i])
                          && (forall j :: 0 <= j < i ==> !CompareFriend(friend, scope[j]))
                          && Truthy(scope[i].friend.direction)
    ensures Classify(friend, scope) == Existing <==>
              exists i :: 0 <= i < |scope| && CompareFriend(friend, scope[i])
                          && (forall j :: 0 <= j < i ==> !CompareFriend(friend, scope[j]))
                          && !Truthy(scope[i].friend.direction)
  {
    var i := FirstMatchIndex(friend, scope);
    if i < |scope| {
      forall i' | 0 <= i' < |scope| && CompareFriend(friend, scope[i'])
                  && (forall j :: 0 <= j < i' ==> !CompareFriend(friend, scope[j]))
        ensures i' == i
      {
      }
    }
  }

  /** Every roster record with its status added, in roster order. */
  function ClassifyAll(friendsToAdd: seq<Entry>, scope: seq<Entry>): (tagged: seq<Tagged>)
    ensures |tagged| == |friendsToAdd|
    ensures forall i :: 0 <= i < |tagged| ==>
              tagged[i].entry == friendsToAdd[i] && tagged[i].reason == None
              && tagged[i].status == Classify(friendsToAdd[i], scope)
  {
    seq(|friendsToAdd|, i requires 0 <= i < |friendsToAdd| =>
      Tagged(friendsToAdd[i], Classify(friendsToAdd[i], scope), None))
  }

  /**
   * `findFriendsToAdd`: tags each roster record with its status and groups the
   * tagged records by status.
   */
  method FindFriendsToAdd(friendsToAdd: seq<Entry>, searchScope: seq<Entry>)
    returns (groups: map<Status, seq<Tagged>>)
    ensures groups == GroupByStatus(ClassifyAll(friendsToAdd, searchScope))
    ensures forall k :: k in groups ==> k == Missing || k == Pending || k == Existing
  {
    var results: seq<Tagged> := [];
    var i := 0;
    while i < |friendsToAdd|
      invariant 0 <= i <= |friendsToAdd|
      invariant |results| == i
      invariant forall j :: 0 <= j < i ==>
                  results[j] == Tagged(friendsToAdd[j], Classify(friendsToAdd[j], searchScope), None)
    {
      var friendToAdd := friendsToAdd[i];
      var isFriend := IsExistingFriend(friendToAdd, searchScope);
      var status := Missing;
      if isFriend.Some? {
        status := if Truthy(isFriend.value.friend.direction) then Pending else Existing;
      }
      assert status == Classify(friendToAdd, searchScope);
      results := results + [Tagged(friendToAdd, status, None)];
      i := i + 1;
    }
    assert results == ClassifyAll(friendsToAdd, searchScope);
    groups := GroupByStatus(results);
    ReconcileKeys(friendsToAdd, searchScope);
  }

  /** The only group keys reconciliation produces are MISSING, PENDING and EXISTING. */
  lemma ReconcileKeys(friendsToAdd: seq<Entry>, scope: seq<Entry>)
    ensures forall k :: k in GroupByStatus(ClassifyAll(friendsToAdd, scope)) ==>
              k == Missing || k == Pending || k == Existing
  {
    GroupKeysWithin(ClassifyAll(friendsToAdd, scope), {Missing, Pending, Existing});
  }

  /** Each roster record is in the group of its status, as the record plus that status. */
  lemma ReconcileMembership(friendsToAdd: seq<Entry>, scope: seq<Entry>)
    ensures var groups := GroupByStatus(ClassifyAll(friendsToAdd, scope));
            forall i :: 0 <= i < |friendsToAdd| ==>
              var t := Tagged(friendsToAdd[i], Classify(friendsToAdd[i], scope), None);
              t.status in groups && t in groups[t.status]
  {
    var tagged := ClassifyAll(friendsToAdd, scope);
    forall i | 0 <= i < |friendsToAdd|
      ensures var t := Tagged(friendsToAdd[i], Classify(friendsToAdd[i], scope), None);
              t.status in GroupByStatus(tagged) && t in GroupByStatus(tagged)[t.status]
    {
      GroupByStatusHas(tagged, i);
    }
  }

  /** Each group holds only roster records, untouched, under the status of the group. */
  lemma ReconcileGroupsOnly(friendsToAdd: seq<Entry>, scope: seq<Entry>)
    ensures var groups := GroupByStatus(ClassifyAll(friendsToAdd, scope));
            forall k, t :: k in groups && t in groups[k] ==>
              t.status == k && t.reason == None && t.entry in friendsToAdd
  {
    var tagged := ClassifyAll(friendsToAdd, scope);
    forall k, t: Tagged | k in GroupByStatus(tagged) && t in GroupByStatus(tagged)[k]
      ensures t.status == k && t.reason == None && t.entry in friendsToAdd
    {
      GroupByStatusOnly(tagged, k, t);
      var i :| 0 <= i < |tagged| && tagged[i] == t;
    }
  }

  /**
   * No record lost, none duplicated: the MISSING, PENDING and EXISTING groups
   * together hold exactly the tagged roster, as many records as the roster has.
   */
  lemma ReconcileCounts(friendsToAdd: seq<Entry>, scope: seq<Entry>)
    ensures var tagged := ClassifyAll(friendsToAdd, scope);
            var groups := GroupByStatus(tagged);
            && multiset(GroupOrEmpty(groups, Missing) + GroupOrEmpty(groups, Pending)
                        + GroupOrEmpty(groups, Existing)) == multiset(tagged)
            && |GroupOrEmpty(groups, Missing)| + |GroupOrEmpty(groups, Pending)|
               + |GroupOrEmpty(groups, Existing)| == |friendsToAdd|
  {
    GroupPartitionThree(ClassifyAll(friendsToAdd, scope), Missing, Pending, Existing);
  }

  /** Reconciliation never produces a PENDING_INCOMING (or PENDING_OUTGOING) group. */
  lemma NoPendingDirectionGroups(friendsToAdd: seq<Entry>, scope: seq<Entry>)
    ensures PendingIncoming !in GroupByStatus(ClassifyAll(friendsToAdd, scope))
    ensures PendingOutgoing !in GroupByStatus(ClassifyAll(friendsToAdd, scope))
  {
    ReconcileKeys(friendsToAdd, scope);
  }
}

=== FILE: google.dfy ===
/**
 * lib/util/google.mjs: the sheet id taken out of the `reference` string, and
 * the mapping of each parsed spreadsheet row to a roster record.  The parsed
 * rows are an input: fetching them is not part of this model.
 */
module Google {
  import opened Js
  import opened Records
  import opened Common
  import opened Friend

  /** A parsed spreadsheet row: column title to cell text. */
  type Row = map<string, string>

  /** `item[column]`: the cell, or `undefined` when the row has none. */
  function Cell(row: Row, column: string): Option<string> {
    if column in row then Some(row[column]) else None
  }

  /**
   * The sheet id: `let [, sheet] = reference.split(":"); sheet = sheet || reference`,
   * the second ':'-separated segment when it is there and not empty, and the
   * whole reference otherwise.
   */
  function SheetId(reference: string): (sheet: string)
    ensures sheet == reference || ':' !in sheet
  {
    var parts := Split(reference, ':');
    var second := if |parts| > 1 then Some(parts[1]) else None;
    if Truthy(second) then second.value else reference
  }

  /** A reference with no ':' is the sheet id itself. */
  lemma SheetIdWhole(reference: string)
    requires ':' !in reference
    ensures SheetId(reference) == reference
  {
    SplitJoin([reference], ':');
  }

  /**
   * `prefix:sheet`, or `prefix:sheet:more`: the sheet id is the segment after
   * the first ':'.
   */
  lemma {:induction false} SheetIdSegment(prefix: string, sheet: string, rest: string)
    requires ':' !in prefix && ':' !in sheet && sheet != ""
    requires rest == "" || rest[0] == ':'
    ensures SheetId(prefix + ":" + sheet + rest) == sheet
  {
    var reference := prefix + ":" + sheet + rest;
    assert reference == prefix + [':'] + (sheet + rest);
    SplitAtSeparator(prefix, sheet + rest, ':');
    SecondSegment(sheet, rest);
  }

  /** `prefix:` or `prefix::more`: an empty second segment falls back to the whole reference. */
  lemma {:induction false} SheetIdEmptySegment(prefix: string, rest: string)
    requires ':' !in prefix
    requires rest == "" || rest[0] == ':'
    ensures SheetId(prefix + ":" + rest) == prefix + ":" + rest
  {
    var reference := prefix + ":" + rest;
    assert reference == prefix + [':'] + ("" + rest);
    SplitAtSeparator(prefix, "" + rest, ':');
    SecondSegment("", rest);
  }

  /** The first part of `sheet + rest` is `sheet` when `rest` is empty or starts a new part. */
  lemma {:induction false} SecondSegment(sheet: string, rest: string)
    requires ':' !in sheet
    requires rest == "" || rest[0] == ':'
    ensures Split(sheet + rest, ':')[0] == sheet
  {
    SplitPrefix(sheet, rest, ':');
    if rest == "" {
      assert Split(rest, ':') == [""];
    } else {
      SplitSeparatorFirst(rest, ':');
    }
  }

  /**
   * The friend object built from one row: the trimmed "Epic Name" as
   * `displayName`, and exactly the platforms xbl, psn and nintendo, from the
   * trimmed Xbox, PSN and Switch cells.  Nothing else is set.
   */
  function RowToFriend(row: Row): (p: Profile)
    ensures p.privateDisplayName == None && p.direction == None && p.mutualFriends == None
    ensures p.externalAuths.Keys == {"xbl", "psn", "nintendo"}
    ensures p.displayName.Some? <==> "Epic Name" in row
    ensures p.displayName.Some? ==> p.displayName.value == Trim(row["Epic Name"])
    ensures p.externalAuths["xbl"].Some? <==> "Xbox" in row
    ensures p.externalAuths["xbl"].Some? ==> p.externalAuths["xbl"].value == Trim(row["Xbox"])
    ensures p.externalAuths["psn"].Some? <==> "PSN" in row
    ensures p.externalAuths["psn"].Some? ==> p.externalAuths["psn"].value == Trim(row["PSN"])
    ensures p.externalAuths["nintendo"].Some? <==> "Switch" in row
    ensures p.externalAuths["nintendo"].Some? ==> p.externalAuths["nintendo"].value == Trim(row["Switch"])
  {
    Profile(
      TrimOpt(Cell(row, "Epic Name")),
      None,
      map["xbl" := TrimOpt(Cell(row, "Xbox")),
          "psn" := TrimOpt(Cell(row, "PSN")),
          "nintendo" := TrimOpt(Cell(row, "Switch"))],
      None,
      None)
  }

  /** The roster record of one row: the friend object under the id `getDisplayName` gives it. */
  function RowToEntry(row: Row): (e: Entry)
    ensures e.friend == RowToFriend(row)
    ensures e.id.Some? ==> e.id.value != "" && Trim(e.id.value) == e.id.value
  {
    var friend := RowToFriend(row);
    var name, psn, xbl, nintendo := TrimOpt(Cell(row, "Epic Name")), TrimOpt(Cell(row, "PSN")),
                                    TrimOpt(Cell(row, "Xbox")), TrimOpt(Cell(row, "Switch"));
    if Truthy(name) then
      TrimIdempotent(Cell(row, "Epic Name").value);
      Entry(GetDisplayName(friend), friend)
    else
      ThreeAliases(xbl, psn, nintendo);
      TrimmedStaysTrimmed(Cell(row, "PSN"));
      TrimmedStaysTrimmed(Cell(row, "Xbox"));
      TrimmedStaysTrimmed(Cell(row, "Switch"));
      Entry(GetDisplayName(friend), friend)
  }

  /** What `fetchUsernames` produces: the sheet it reads, its error slot and the roster. */
  datatype Fetched = Fetched(sheet: string, error: Option<string>, roster: seq<Entry>)

  /**
   * `fetchUsernames(reference)` on the rows the parser returns: one record per
   * row, in row order, and no error.
   */
  function FetchUsernames(reference: string, rows: seq<Row>): (r: Fetched)
    ensures r.sheet == SheetId(reference)
    ensures r.error == None
    ensures |r.roster| == |rows|
    ensures forall i :: 0 <= i < |rows| ==> r.roster[i] == RowToEntry(rows[i])
  {
    Fetched(SheetId(reference), None,
            seq(|rows|, i requires 0 <= i < |rows| => RowToEntry(rows[i])))
  }

  /** The first truthy value of a list, or `undefined`. */
  function FirstTruthy(values: seq<Option<string>>): (r: Option<string>)
    ensures r.None? ==> forall i :: 0 <= i < |values| ==> !Truthy(values[i])
    ensures r.Some? ==> Truthy(r) && r in values
  {
    if values == [] then None
    else if Truthy(values[0]) then values[0]
    else FirstTruthy(values[1..])
  }

  /**
   * A roster record's id is the first truthy one of the trimmed Epic Name,
   * PSN, Xbox and Switch cells, in that order (psn is consulted before xbl);
   * with none, there is no id.  A blank Epic Name does fall back here, since
   * it is trimmed before the choice is made.
   */
  lemma RosterId(row: Row)
    ensures RowToEntry(row).id == FirstTruthy([TrimOpt(Cell(row, "Epic Name")), TrimOpt(Cell(row, "PSN")),
                                               TrimOpt(Cell(row, "Xbox")), TrimOpt(Cell(row, "Switch"))])
  {
    var name, psn, xbl, nintendo := TrimOpt(Cell(row, "Epic Name")), TrimOpt(Cell(row, "PSN")),
                                    TrimOpt(Cell(row, "Xbox")), TrimOpt(Cell(row, "Switch"));
    var values := [name, psn, xbl, nintendo];
    assert values[1..] == [psn, xbl, nintendo];
    if Truthy(name) {
      TrimIdempotent(Cell(row, "Epic Name").value);
    } else {
      ThreeAliases(xbl, psn, nintendo);
      TrimmedStaysTrimmed(Cell(row, "PSN"));
      TrimmedStaysTrimmed(Cell(row, "Xbox"));
      TrimmedStaysTrimmed(Cell(row, "Switch"));
    }
  }

  /** Trimming a trimmed optional string changes nothing. */
  lemma TrimmedStaysTrimmed(s: Option<string>)
    ensures TrimOpt(TrimOpt(s)) == TrimOpt(s)
  {
    if s.Some? {
      TrimIdempotent(s.value);
    }
  }

  /**
   * With the three roster platforms only, the external name is the first
   * truthy one of psn, xbl and nintendo, in that order.
   */
  lemma ThreeAliases(xbl: Option<string>, psn: Option<string>, nintendo: Option<string>)
    ensures GetExternalAuthDisplayName(map["xbl" := xbl, "psn" := psn, "nintendo" := nintendo])
            == FirstTruthy([psn, xbl, nintendo])
  {
    var auths := map["xbl" := xbl, "psn" := psn, "nintendo" := nintendo];
    assert ExternalName(auths, "psn") == psn;
    assert ExternalName(auths, "xbl") == xbl;
    assert ExternalName(auths, "nintendo") == nintendo;
    assert ExternalName(auths, "steam") == None;
    assert ExternalName(auths, "github") == None;
    assert ExternalName(auths, "twitch") == None;
    assert ExternalName(auths, "undefined") == None;
    var values := [psn, xbl, nintendo];
    assert values[1..] == [xbl, nintendo];
    assert values[1..][1..] == [nintendo];
    assert Sources[0] == "psn" && Sources[1] == "xbl" && Sources[2] == "nintendo";
    assert Sources[3] == "steam" && Sources[4] == "github" && Sources[5] == "twitch";
    if Truthy(psn) {
      assert Truthy(ExternalName(auths, Sources[0]));
    } else if Truthy(xbl) {
      assert Truthy(ExternalName(auths, Sources[1]));
    } else if Truthy(nintendo) {
      assert Truthy(ExternalName(auths, Sources[2]));
      assert forall j :: 0 <= j < 2 ==> !Truthy(ExternalName(auths, Sources[j]));
      assert FirstTruthy(values[1..][1..]) == nintendo;
    } else {
      assert forall i :: 0 <= i < |Sources| ==> !Truthy(ExternalName(auths, Sources[i]));
    }
  }

  /**
   * Roster records never carry `_displayName`, so compareFriend can only
   * match one of them by a shared platform alias or by id.
   */
  lemma RosterMatch(row: Row, existing: Entry)
    ensures CompareFriend(RowToEntry(row), existing) <==>
              AliasMatch(RowToEntry(row), existing) || CompareStrings(RowToEntry(row).id, existing.id)
  {
  }

  /** A roster record is only ever matched through its xbl, psn and nintendo aliases or its id. */
  lemma RosterAliases(row: Row)
    ensures RowToEntry(row).friend.externalAuths.Keys == {"xbl", "psn", "nintendo"}
    ensures RowToEntry(row).friend.privateDisplayName == None
  {
  }
}

=== FILE: index.dfy ===
/**
 * lib/index.mjs: one run of the reconciler.  After login the roster is
 * fetched, the user's own record dropped, every roster record reconciled
 * against the search scope, and the commands the mode names run on their
 * pools, each limited and skipped when empty or on a dry run.
 */
module Index {
  import opened Js
  import opened Records
  import opened Common
  import opened Friend
  import opened Fortnite
  import opened Google
  import opened Summaries

  /** The two commands a mode can run. */
  datatype Cmd = Add | Accept

  /** `{ cmd, source }`: a command and the status whose group is its pool. */
  datatype Command = Command(cmd: Cmd, source: Status)

  /** `config.commands`: the commands each mode runs, in order. */
  const CommandTable: map<string, seq<Command>> := map[
    "auto" := [Command(Add, Missing), Command(Accept, PendingIncoming)],
    "add" := [Command(Add, Missing)],
    "accept" := [Command(Accept, PendingIncoming)]]

  /**
   * "auto" lists add on MISSING then accept on PENDING_INCOMING, which is the
   * "add" entry followed by the "accept" entry; "add" and "accept" list only
   * their own command.
   */
  lemma CommandDispatch()
    ensures CommandTable.Keys == {"auto", "add", "accept"}
    ensures CommandTable["add"] == [Command(Add, Missing)]
    ensures CommandTable["accept"] == [Command(Accept, PendingIncoming)]
    ensures CommandTable["auto"] == CommandTable["add"] + CommandTable["accept"]
    ensures "summary" !in CommandTable
    ensures forall mode, i :: mode in CommandTable && 0 <= i < |CommandTable[mode]| ==>
              (CommandTable[mode][i].cmd == Add <==> CommandTable[mode][i].source == Missing)
              && (CommandTable[mode][i].cmd == Accept <==> CommandTable[mode][i].source == PendingIncoming)
    ensures forall i :: 0 <= i < |CommandTable["add"]| ==> CommandTable["add"][i].cmd == Add
    ensures forall i :: 0 <= i < |CommandTable["accept"]| ==> CommandTable["accept"][i].cmd == Accept
  {
  }

  // ---------------------------------------------------------------------------
  // roster and scope

  /**
   * The roster without the user's own record: the records whose
   * `friend.displayName` differs (`!==`) from the client's display name, in order.
   */
  function SelfFilter(possible: seq<Entry>, own: Option<string>): (kept: seq<Entry>)
    ensures forall e :: e in kept ==> e.friend.displayName != own
    ensures forall e :: multiset(kept)[e] == if e.friend.displayName != own then multiset(possible)[e] else 0
  {
    WithKeyMultiset(possible, (e: Entry) => e.friend.displayName != own, true);
    WithKey(possible, (e: Entry) => e.friend.displayName != own, true)
  }

  /** Dropping the own record keeps the others in order: it filters each part of a concatenation. */
  lemma SelfFilterOrder(xs: seq<Entry>, ys: seq<Entry>, own: Option<string>)
    ensures SelfFilter(xs + ys, own) == SelfFilter(xs, own) + SelfFilter(ys, own)
  {
    WithKeyAppend(xs, ys, (e: Entry) => e.friend.displayName != own, true);
  }

  /** A roster without the user's own record comes through whole. */
  lemma SelfFilterNoSelf(possible: seq<Entry>, own: Option<string>)
    requires forall i :: 0 <= i < |possible| ==> possible[i].friend.displayName != own
    ensures SelfFilter(possible, own) == possible
  {
    WithKeyAll(possible, (e: Entry) => e.friend.displayName != own, true);
  }

  /**
   * The search scope: the current friends, then the "pending_incoming"
   * group, then the "pending_outgoing" group, each absent group empty.
   */
  function SearchScope(client: FortniteClient): (scope: seq<Entry>)
    ensures |scope| == |client.friends.current| + Len(Lookup(client.friends.pending, "pending_incoming"))
                       + Len(Lookup(client.friends.pending, "pending_outgoing"))
    ensures var n, m := |client.friends.current|, Len(Lookup(client.friends.pending, "pending_incoming"));
            && scope[..n] == client.friends.current
            && scope[n..n + m] == GroupOrEmpty(client.friends.pending, "pending_incoming")
            && scope[n + m..] == GroupOrEmpty(client.friends.pending, "pending_outgoing")
  {
    client.friends.current
    + GroupOrEmpty(client.friends.pending, "pending_incoming")
    + GroupOrEmpty(client.friends.pending, "pending_outgoing")
  }

  /**
   * The order of the scope decides which record a roster record is matched
   * to: a matching current friend comes first, then a matching incoming
   * request, and an outgoing request only when neither matches.
   */
  lemma ScopeFirstMatch(client: FortniteClient, e: Entry)
    ensures var current := client.friends.current;
            var incoming := GroupOrEmpty(client.friends.pending, "pending_incoming");
            var outgoing := GroupOrEmpty(client.friends.pending, "pending_outgoing");
            var i := FirstMatchIndex(e, SearchScope(client));
            && (FirstMatchIndex(e, current) < |current| ==> i == FirstMatchIndex(e, current))
            && (FirstMatchIndex(e, current) == |current| && FirstMatchIndex(e, incoming) < |incoming|
                ==> i == |current| + FirstMatchIndex(e, incoming))
            && (FirstMatchIndex(e, current) == |current| && FirstMatchIndex(e, incoming) == |incoming|
                ==> i == |current| + |incoming| + FirstMatchIndex(e, outgoing))
    ensures var current := client.friends.current;
            var incoming := GroupOrEmpty(client.friends.pending, "pending_incoming");
            var outgoing := GroupOrEmpty(client.friends.pending, "pending_outgoing");
            IsExistingFriend(e, SearchScope(client)) ==
              if IsExistingFriend(e, current).Some? then IsExistingFriend(e, current)
              else if IsExistingFriend(e, incoming).Some? then IsExistingFriend(e, incoming)
              else IsExistingFriend(e, outgoing)
  {
    var current := client.friends.current;
    var incoming := GroupOrEmpty(client.friends.pending, "pending_incoming");
    var outgoing := GroupOrEmpty(client.friends.pending, "pending_outgoing");
    assert SearchScope(client) == current + (incoming + outgoing);
    FirstMatchAppend(e, current, incoming + outgoing);
    FirstMatchAppend(e, incoming, outgoing);
    IsExistingFriendAppend(e, current, incoming + outgoing);
    IsExistingFriendAppend(e, incoming, outgoing);
  }

  /**
   * A roster record that matches a current friend is EXISTING, whatever the
   * pending requests hold, as long as current friends carry no direction.
   */
  lemma CurrentFriendWins(client: FortniteClient, e: Entry, k: int)
    requires 0 <= k < |client.friends.current| && CompareFriend(e, client.friends.current[k])
    requires forall j :: 0 <= j < |client.friends.current| ==> !Truthy(client.friends.current[j].friend.direction)
    ensures FirstMatchIndex(e, SearchScope(client)) < |client.friends.current|
    ensures Classify(e, SearchScope(client)) == Existing
  {
    ScopeFirstMatch(client, e);
    var i := FirstMatchIndex(e, client.friends.current);
    assert i <= k;
    assert SearchScope(client)[i] == client.friends.current[i];
  }

  /** A pending record is in the scope exactly when its direction files it under incoming or outgoing. */
  lemma PendingInScope(pendingEntries: seq<Entry>, key: string, e: Entry)
    requires forall i :: 0 <= i < |pendingEntries| ==> pendingEntries[i].friend.direction.Some?
    ensures e in GroupOrEmpty(GroupByDirection(pendingEntries, "pending_"), key) <==>
              e in pendingEntries && DirectionKey("pending_", e) == key
  {
    var g := GroupByDirection(pendingEntries, "pending_");
    var dk := (x: Entry) => DirectionKey("pending_", x);
    if key in g {
      WithKeyMultiset(pendingEntries, dk, key);
      assert multiset(g[key])[e] == if dk(e) == key then multiset(pendingEntries)[e] else 0;
    } else if e in pendingEntries {
      var i :| 0 <= i < |pendingEntries| && pendingEntries[i] == e;
      assert DirectionKey("pending_", e) == "pending_" + Lower(pendingEntries[i].friend.direction.value);
    }
  }

  /**
   * The scope holds exactly the current friends and the pending records whose
   * key is "pending_incoming" or "pending_outgoing".
   */
  lemma ScopeMembers(displayName: Option<string>, current: seq<Entry>, pendingEntries: seq<Entry>, e: Entry)
    requires forall i :: 0 <= i < |pendingEntries| ==> pendingEntries[i].friend.direction.Some?
    ensures var client := FortniteClient(displayName,
                                         FriendLists(current, GroupByDirection(pendingEntries, "pending_")));
            e in SearchScope(client) <==>
              e in current
              || (e in pendingEntries && DirectionKey("pending_", e) in {"pending_incoming", "pending_outgoing"})
  {
    PendingInScope(pendingEntries, "pending_incoming", e);
    PendingInScope(pendingEntries, "pending_outgoing", e);
  }

  /** Requests whose direction is INCOMING or OUTGOING are always searched. */
  lemma DirectedRequestsInScope(displayName: Option<string>, current: seq<Entry>,
                                pendingEntries: seq<Entry>, e: Entry)
    requires forall i :: 0 <= i < |pendingEntries| ==> pendingEntries[i].friend.direction.Some?
    requires e in pendingEntries
    requires e.friend.direction == Some("INCOMING") || e.friend.direction == Some("OUTGOING")
    ensures e in SearchScope(FortniteClient(displayName,
                                            FriendLists(current, GroupByDirection(pendingEntries, "pending_"))))
  {
    PendingKeys();
    ScopeMembers(displayName, current, pendingEntries, e);
  }

  // ---------------------------------------------------------------------------
  // processFriends

  /**
   * The pool: the whole list for a limit of -1, `slice(0, limit)` for any
   * other limit (a negative one counting back from the end).
   */
  function FriendPool(friends: seq<Tagged>, limit: int): (pool: seq<Tagged>)
    ensures pool <= friends
    ensures limit == -1 ==> pool == friends
    ensures limit >= 0 ==> |pool| == if limit < |friends| then limit else |friends|
    ensures limit < -1 ==> |pool| == if |friends| + limit > 0 then |friends| + limit else 0
  {
    if limit != -1 then SliceTo(friends, limit) else friends
  }

  /** What one `processFriends` call did: its pool, whether it ran, the outcomes and their tally. */
  datatype CommandReport = CommandReport(
    cmd: Cmd, pool: seq<Tagged>, executed: bool, outcomes: seq<Tagged>, tally: Option<string>)

  /**
   * `processFriends`: the pool is the limited list; with an empty pool or on a
   * dry run nothing is sent, otherwise the command runs on the whole pool and
   * its outcomes are tallied.
   */
  function ProcessFriends(remote: Remote, dryrun: bool, limit: int, cmd: Cmd,
                          friends: Option<seq<Tagged>>): (report: CommandReport)
    ensures report.cmd == cmd
    ensures report.pool == FriendPool(OrEmpty(friends), limit)
    ensures report.executed <==> |report.pool| > 0 && !dryrun
    ensures !report.executed ==> report.outcomes == [] && report.tally == None
    ensures report.executed ==>
              && |report.outcomes| == |report.pool|
              && report.tally == Some(LightExecutionSummary(report.outcomes))
              && (cmd == Add ==> report.outcomes == AddFriend(report.pool, remote))
              && (cmd == Accept ==> report.outcomes == AcceptFriend(report.pool, remote))
  {
    var friendPool := FriendPool(OrEmpty(friends), limit);
    var skipExecution := |friendPool| == 0 || dryrun;
    if skipExecution then CommandReport(cmd, friendPool, false, [], None)
    else
      var result := match cmd
                    case Add => AddFriend(friendPool, remote)
                    case Accept => AcceptFriend(friendPool, remote);
      CommandReport(cmd, friendPool, true, result, Some(LightExecutionSummary(result)))
  }

  /**
   * Reconciliation has no PENDING_INCOMING group, so the accept command always
   * has an empty pool and never runs, whatever the limit and the dry-run flag.
   */
  lemma AcceptNeverRuns(possible: seq<Entry>, scope: seq<Entry>, remote: Remote, dryrun: bool, limit: int)
    ensures var report := ProcessFriends(remote, dryrun, limit, Accept,
                                         Lookup(GroupByStatus(ClassifyAll(possible, scope)), PendingIncoming));
            report.pool == [] && !report.executed && report.outcomes == []
  {
    NoPendingDirectionGroups(possible, scope);
  }

  // ---------------------------------------------------------------------------
  // the run

  /** The flags of a run that the model observes. */
  datatype Options = Options(mode: string, dryrun: bool, limit: int, reference: string)

  /** The logged-in user: display name, current friends and pending friends. */
  datatype Account = Account(displayName: Option<string>, friends: seq<Profile>, pendingFriends: seq<Profile>)

  /** The result of logging in. */
  datatype Login = LoggedIn(account: Account) | LoginFailed(message: string)

  /** What a run reports: an authentication failure, or what it computed and ran. */
  datatype Report =
    | AuthenticationFailed(message: string)
    | Completed(sheet: string, possible: seq<Entry>, results: map<Status, seq<Tagged>>,
                overview: string, table: seq<string>, steps: seq<CommandReport>, loggedOut: bool)

  /** The records inside a list of tagged records. */
  function Entries(tagged: seq<Tagged>): (r: seq<Entry>)
    ensures |r| == |tagged|
  {
    seq(|tagged|, i requires 0 <= i < |tagged| => tagged[i].entry)
  }

  /** `{ ...findResults, POSSIBLE: totalPossibleFriends }`. */
  function OverviewData(findResults: map<Status, seq<Tagged>>, possible: seq<Entry>): (data: map<Status, seq<Entry>>)
    ensures Lookup(data, Possible) == Some(possible)
    ensures forall k :: k != Possible ==> Len(Lookup(data, k)) == Len(Lookup(findResults, k))
  {
    (map k | k in findResults :: Entries(findResults[k]))[Possible := possible]
  }

  /**
   * The light summary of a run: with no CURRENT, PENDING_INCOMING or
   * PENDING_OUTGOING group out of reconciliation, those three always show 0.
   */
  lemma OverviewShape(findResults: map<Status, seq<Tagged>>, possible: seq<Entry>)
    requires Current !in findResults && PendingIncoming !in findResults && PendingOutgoing !in findResults
    ensures LightSummary(OverviewData(findResults, possible))
            == Item("TOTAL", |possible|)
               + " | " + (Item("CURRENT", 0)
               + " | " + (Item("INCOMING", 0)
               + " | " + (Item("OUTGOING", 0)
               + " | " + Item("MISSING", Len(Lookup(findResults, Missing))))))
  {
    var data := OverviewData(findResults, possible);
    assert Len(Lookup(data, Current)) == 0;
    assert Len(Lookup(data, PendingIncoming)) == 0;
    assert Len(Lookup(data, PendingOutgoing)) == 0;
    assert Len(Lookup(data, Missing)) == Len(Lookup(findResults, Missing));
  }

  /**
   * The steps of a run's dispatch: one `processFriends` report per command of
   * the mode, in command order, each on the group its source names, followed
   * by a logout; a mode with no commands does nothing and stays logged in.
   */
  predicate Dispatched(options: Options, findResults: map<Status, seq<Tagged>>, remote: Remote,
                       steps: seq<CommandReport>, loggedOut: bool)
  {
    if options.mode in CommandTable then
      && loggedOut
      && |steps| == |CommandTable[options.mode]|
      && forall i :: 0 <= i < |steps| ==>
           var command := CommandTable[options.mode][i];
           steps[i] == ProcessFriends(remote, options.dryrun, options.limit, command.cmd,
                                      Lookup(findResults, command.source))
    else
      steps == [] && !loggedOut
  }

  /**
   * Every add step works on the limited MISSING group; every accept step has
   * an empty pool and executes nothing.
   */
  predicate PoolsFollow(findResults: map<Status, seq<Tagged>>, limit: int, steps: seq<CommandReport>) {
    forall i :: 0 <= i < |steps| ==>
      (steps[i].cmd == Add ==> steps[i].pool == FriendPool(GroupOrEmpty(findResults, Missing), limit))
      && (steps[i].cmd == Accept ==> steps[i].pool == [] && !steps[i].executed)
  }

  /**
   * The commands of a mode in the table, each run by processFriends on the
   * group its source names, then logout; a mode not in the table runs
   * nothing and does not log out.  Without a PENDING_INCOMING group, accept
   * has nothing to do.
   */
  method DispatchCommands(options: Options, findResults: map<Status, seq<Tagged>>, remote: Remote)
    returns (steps: seq<CommandReport>, loggedOut: bool)
    requires PendingIncoming !in findResults
    ensures Dispatched(options, findResults, remote, steps, loggedOut)
    ensures PoolsFollow(findResults, options.limit, steps)
  {
    steps, loggedOut := [], false;
    var commands := if options.mode in CommandTable then Some(CommandTable[options.mode]) else None;
    if commands.Some? {
      var cs := commands.value;
      CommandDispatch();
      steps := seq(|cs|, i requires 0 <= i < |cs| =>
        ProcessFriends(remote, options.dryrun, options.limit, cs[i].cmd, Lookup(findResults, cs[i].source)));
      loggedOut := true;
    }
  }

  /** The scope of the client an account gives. */
  function AccountScope(account: Account): seq<Entry>
    requires Directed(account.pendingFriends)
  {
    SearchScope(FortniteClient(account.displayName,
                               FriendLists(Rationalised(account.friends),
                                           GroupByDirection(Rationalised(account.pendingFriends), "pending_"))))
  }

  /**
   * What a run learns before any command: the sheet id of the reference, the
   * fetched roster without the user's own record, and its reconciliation
   * against the account's search scope.
   */
  predicate Surveyed(account: Account, reference: string, rows: seq<Row>,
                     sheet: string, possible: seq<Entry>, findResults: map<Status, seq<Tagged>>)
    requires Directed(account.pendingFriends)
  {
    && sheet == SheetId(reference)
    && possible == SelfFilter(FetchUsernames(reference, rows).roster, account.displayName)
    && findResults == GroupByStatus(ClassifyAll(possible, AccountScope(account)))
  }

  /**
   * The part of a run before any command: the client's lists, the roster
   * fetched from the sheet without the user's own record, and its
   * reconciliation against the search scope.
   */
  method Survey(account: Account, reference: string, rows: seq<Row>)
    returns (sheet: string, possible: seq<Entry>, findResults: map<Status, seq<Tagged>>)
    requires Directed(account.pendingFriends)
    ensures Surveyed(account, reference, rows, sheet, possible, findResults)
    ensures forall k :: k in findResults ==> k == Missing || k == Pending || k == Existing
  {
    var client := CreateFortniteClient(account.displayName, account.friends, account.pendingFriends);
    var possibleFriends := FetchUsernames(reference, rows);
    sheet := possibleFriends.sheet;
    possible := SelfFilter(possibleFriends.roster, client.displayName);
    var scope := SearchScope(client);
    assert scope == AccountScope(account);
    findResults := FindFriendsToAdd(possible, scope);
  }

  /**
   * The part of a run after the survey: the light summary, then the commands
   * of the mode.  The mode "summary", and any mode not in the table, runs no
   * command and does not log out; "summary" tabulates the reconciliation,
   * with the corrected status column (`TableLabels`).
   */
  method Conclude(options: Options, possible: seq<Entry>, findResults: map<Status, seq<Tagged>>, remote: Remote)
    returns (overview: string, table: seq<string>, steps: seq<CommandReport>, loggedOut: bool)
    requires forall k :: k in findResults ==> k == Missing || k == Pending || k == Existing
    ensures overview == LightSummary(OverviewData(findResults, possible))
    ensures table == if options.mode == "summary" then TableLabels(DryrunRows(findResults)) else []
    ensures Dispatched(options, findResults, remote, steps, loggedOut)
    ensures PoolsFollow(findResults, options.limit, steps)
  {
    overview := LightSummary(OverviewData(findResults, possible));
    table, steps, loggedOut := [], [], false;
    if options.mode != "summary" {
      steps, loggedOut := DispatchCommands(options, findResults, remote);
    } else {
      table := TableLabels(DryrunRows(findResults));
      CommandDispatch();
    }
  }

  /**
   * `dryrunSummary` as written gets through its status column exactly when
   * every roster record is MISSING: one record that is already a friend or
   * has a pending request (EXISTING or PENDING) makes it throw.
   */
  lemma DryrunSummaryAsWritten(friendsToAdd: seq<Entry>, scope: seq<Entry>)
    ensures var rows := DryrunRows(GroupByStatus(ClassifyAll(friendsToAdd, scope)));
            TableLabelsAsWritten(rows).None? <==>
              exists i :: 0 <= i < |friendsToAdd| && Classify(friendsToAdd[i], scope) != Missing
  {
    var tagged := ClassifyAll(friendsToAdd, scope);
    DryrunLabelsAsWritten(tagged);
    if i :| 0 <= i < |friendsToAdd| && Classify(friendsToAdd[i], scope) != Missing {
      assert tagged[i].status != Missing;
    }
  }

  /**
   * A roster of one player who is already a current friend: the player is
   * EXISTING, and summary mode as written throws on that row, where the
   * corrected column reads "EXISTING".
   */
  lemma SummaryModeThrowsOnFriend(e: Entry)
    requires Truthy(e.id) && !Truthy(e.friend.direction)
    ensures Classify(e, [e]) == Existing
    ensures TableLabelsAsWritten(DryrunRows(GroupByStatus(ClassifyAll([e], [e])))).None?
    ensures TableLabels(DryrunRows(GroupByStatus(ClassifyAll([e], [e])))) == ["EXISTING"]
  {
    IdMatches(e, e);
    assert FirstMatchIndex(e, [e]) == 0;
    assert Classify(e, [e]) == Existing;
    var tagged := ClassifyAll([e], [e]);
    assert tagged[0] == Tagged(e, Existing, None);
    assert tagged == [Tagged(e, Existing, None)];
    SingleRowTable(Tagged(e, Existing, None));
    SingleRowLabels(Tagged(e, Existing, None));
    GetTitleTable();
  }

  /**
   * The message of the TypeError `direction.toLowerCase()` raises in Node when
   * a pending friend has no direction.
   */
  const MissingDirection := "Cannot read properties of undefined (reading 'toLowerCase')"

  /**
   * One run: on a failed login only the failure; otherwise the sheet, the
   * roster without the user's own record, its reconciliation, the light
   * summary, and for a mode in the command table each of its commands
   * followed by logout.  A pending friend without a direction makes
   * `createFortniteClient` throw inside the login `try`, so the run ends as
   * an authentication failure with the TypeError's message.
   */
  method Run(options: Options, login: Login, rows: seq<Row>, remote: Remote) returns (report: Report)
    ensures login.LoginFailed? ==> report == AuthenticationFailed(login.message)
    ensures login.LoggedIn? && !Directed(login.account.pendingFriends) ==>
              report == AuthenticationFailed(MissingDirection)
    ensures login.LoggedIn? && Directed(login.account.pendingFriends) ==> report.Completed?
    ensures report.Completed? ==>
              && login.LoggedIn?
              && Directed(login.account.pendingFriends)
              && Surveyed(login.account, options.reference, rows, report.sheet, report.possible, report.results)
              && report.overview == LightSummary(OverviewData(report.results, report.possible))
              && report.table == (if options.mode == "summary" then TableLabels(DryrunRows(report.results)) else [])
              && (forall k :: k in report.results ==> k == Missing || k == Pending || k == Existing)
              && Dispatched(options, report.results, remote, report.steps, report.loggedOut)
              && PoolsFollow(report.results, options.limit, report.steps)
  {
    if login.LoginFailed? {
      return AuthenticationFailed(login.message);
    }
    if !Directed(login.account.pendingFriends) {
      return AuthenticationFailed(MissingDirection);
    }
    var sheet, possible, findResults := Survey(login.account, options.reference, rows);
    var overview, table, steps, loggedOut := Conclude(options, possible, findResults, remote);
    report := Completed(sheet, possible, findResults, overview, table, steps, loggedOut);
  }
}

=== FILE: js.dfy ===
/**
 * The JavaScript primitives the roster reconciler relies on: optional values
 * (`undefined`), truthiness of strings, String.prototype.trim,
 * String.prototype.toLowerCase (ASCII letters), String.prototype.split on one
 * character, Array.prototype.join, Array.prototype.slice(0, end) and the
 * decimal rendering of an array length inside a template string.
 */
module Js {

  /** `undefined` or a value. */
  datatype Option<+T> = None | Some(value: T)

  /** Truthiness of an optional string: `undefined` and `""` are falsy. */
  predicate Truthy(s: Option<string>) {
    s.Some? && s.value != ""
  }

  // ---------------------------------------------------------------------------
  // trim

  /** The WhiteSpace and LineTerminator code points that String.prototype.trim removes. */
  const WhiteSpace: set<char> := {
    '\t', '\n', '\U{000B}', '\U{000C}', '\r', ' ', '\U{00A0}', '\U{1680}',
    '\U{2000}', '\U{2001}', '\U{2002}', '\U{2003}', '\U{2004}', '\U{2005}',
    '\U{2006}', '\U{2007}', '\U{2008}', '\U{2009}', '\U{200A}',
    '\U{2028}', '\U{2029}', '\U{202F}', '\U{205F}', '\U{3000}', '\U{FEFF}'
  }

  predicate IsSpace(c: char) {
    c in WhiteSpace
  }

  /** The index of the first non-space character at or after `from` (`|s|` if none). */
  function SkipSpaces(s: string, from: nat): (k: nat)
    requires from <= |s|
    ensures from <= k <= |s|
    ensures forall i :: from <= i < k ==> IsSpace(s[i])
    ensures k < |s| ==> !IsSpace(s[k])
    decreases |s| - from
  {
    if from == |s| || !IsSpace(s[from]) then from else SkipSpaces(s, from + 1)
  }

  /** The index just past the last non-space character before `to` (0 if none). */
  function SkipSpacesBack(s: string, to: nat): (e: nat)
    requires to <= |s|
    ensures e <= to
    ensures forall i :: e <= i < to ==> IsSpace(s[i])
    ensures e > 0 ==> !IsSpace(s[e - 1])
  {
    if to == 0 || !IsSpace(s[to - 1]) then to else SkipSpacesBack(s, to - 1)
  }

  /** `r` is the piece of `s` starting at `k`, with only white space around it. */
  predicate TrimmedAt(s: string, r: string, k: int) {
    && 0 <= k <= |s| - |r|
    && r == s[k..k + |r|]
    && (forall i :: 0 <= i < k ==> IsSpace(s[i]))
    && (forall i :: k + |r| <= i < |s| ==> IsSpace(s[i]))
  }

  /**
   * String.prototype.trim: the longest piece of `s` that neither starts nor
   * ends with white space, everything cut off on either side being white space.
   */
  function Trim(s: string): (r: string)
    ensures exists k :: TrimmedAt(s, r, k)
    ensures r != "" ==> !IsSpace(r[0]) && !IsSpace(r[|r| - 1])
    ensures r == "" <==> forall i :: 0 <= i < |s| ==> IsSpace(s[i])
  {
    var k := SkipSpaces(s, 0);
    var e := SkipSpacesBack(s, |s|);
    if k == |s| then
      assert TrimmedAt(s, "", 0);
      ""
    else
      assert !IsSpace(s[k]);
      assert k < e;
      assert TrimmedAt(s, s[k..e], k);
      s[k..e]
  }

  /** Trimming twice is trimming once. */
  lemma TrimIdempotent(s: string)
    ensures Trim(Trim(s)) == Trim(s)
  {
    var r := Trim(s);
    if r != "" {
      assert SkipSpaces(r, 0) == 0;
      assert SkipSpacesBack(r, |r|) == |r|;
    }
  }

  /** `value?.trim()`: trims a present string and keeps `undefined`. */
  function TrimOpt(s: Option<string>): (r: Option<string>)
    ensures r.Some? <==> s.Some?
    ensures s.Some? ==> r.value == Trim(s.value)
  {
    match s
    case None => None
    case Some(v) => Some(Trim(v))
  }

  // ---------------------------------------------------------------------------
  // toLowerCase

  /** toLowerCase restricted to the ASCII letters. */
  function LowerChar(c: char): char {
    if 'A' <= c <= 'Z' then (c as int + 32) as char else c
  }

  function Lower(s: string): string {
    seq(|s|, i requires 0 <= i < |s| => LowerChar(s[i]))
  }

  // ---------------------------------------------------------------------------
  // split and join

  /** Array.prototype.join: the parts with `sep` between consecutive ones. */
  function Join(parts: seq<string>, sep: string): string
    decreases |parts|
  {
    if |parts| == 0 then ""
    else if |parts| == 1 then parts[0]
    else parts[0] + sep + Join(parts[1..], sep)
  }

  /**
   * String.prototype.split on the one-character separator `sep`: at least one
   * part, no part holds the separator, and joining the parts back gives `s`.
   */
  function Split(s: string, sep: char): (parts: seq<string>)
    ensures |parts| >= 1
    ensures forall i :: 0 <= i < |parts| ==> sep !in parts[i]
    ensures Join(parts, [sep]) == s
    decreases |s|
  {
    if |s| == 0 then [""]
    else
      var rest := Split(s[1..], sep);
      if s[0] == sep then
        assert [sep] + Join(rest, [sep]) == s;
        [""] + rest
      else
        var parts := [[s[0]] + rest[0]] + rest[1..];
        assert parts[1..] == rest[1..];
        assert Join(parts, [sep]) == [s[0]] + Join(rest, [sep]);
        parts
  }

  /** Splitting on a separator that starts the text gives an empty first part. */
  lemma {:induction false} SplitSeparatorFirst(y: string, sep: char)
    requires y != [] && y[0] == sep
    ensures Split(y, sep)[0] == ""
  {
  }

  /**
   * Text without the separator followed by more text: the text glues onto the
   * first part of the rest.
   */
  lemma {:induction false} SplitPrefix(x: string, y: string, sep: char)
    requires sep !in x
    ensures Split(x + y, sep) == [x + Split(y, sep)[0]] + Split(y, sep)[1..]
    decreases |x|
  {
    var ys := Split(y, sep);
    if x == [] {
      assert x + y == y;
      assert x + ys[0] == ys[0];
      assert [ys[0]] + ys[1..] == ys;
    } else {
      assert (x + y)[1..] == x[1..] + y;
      assert (x + y)[0] == x[0] != sep;
      SplitPrefix(x[1..], y, sep);
      var rest := Split(x[1..] + y, sep);
      assert rest == [x[1..] + ys[0]] + ys[1..];
      assert rest[1..] == ys[1..];
      assert [x[0]] + rest[0] == x + ys[0];
    }
  }

  /** Text without the separator, the separator, then more text: the text is the first part. */
  lemma {:induction false} SplitAtSeparator(x: string, y: string, sep: char)
    requires sep !in x
    ensures Split(x + [sep] + y, sep) == [x] + Split(y, sep)
  {
    var t := [sep] + y;
    assert t[0] == sep && t[1..] == y;
    var tail := Split(t, sep);
    assert tail == [""] + Split(y, sep);
    SplitPrefix(x, t, sep);
    assert x + [sep] + y == x + t;
    assert x + tail[0] == x && tail[1..] == Split(y, sep);
  }

  /** Split undoes Join when no part holds the separator. */
  lemma {:induction false} SplitJoin(parts: seq<string>, sep: char)
    requires |parts| >= 1
    requires forall i :: 0 <= i < |parts| ==> sep !in parts[i]
    ensures Split(Join(parts, [sep]), sep) == parts
    decreases |parts|
  {
    if |parts| == 1 {
      SplitPrefix(parts[0], "", sep);
      assert parts[0] + "" == parts[0];
    } else {
      SplitJoin(parts[1..], sep);
      SplitAtSeparator(parts[0], Join(parts[1..], [sep]), sep);
      assert Join(parts, [sep]) == parts[0] + [sep] + Join(parts[1..], [sep]);
      assert [parts[0]] + parts[1..] == parts;
    }
  }

  // ---------------------------------------------------------------------------
  // slice

  /**
   * `xs.slice(0, end)`: a prefix of `xs`; a negative `end` counts back from the
   * end of the array, and an `end` past the length stops at the length.
   */
  function SliceTo<T>(xs: seq<T>, end: int): (r: seq<T>)
    ensures r <= xs
    ensures end >= 0 ==> |r| == if end < |xs| then end else |xs|
    ensures end < 0 ==> |r| == if |xs| + end > 0 then |xs| + end else 0
  {
    var stop := if end < 0 then (if |xs| + end > 0 then |xs| + end else 0)
                else (if end < |xs| then end else |xs|);
    xs[..stop]
  }

  // ---------------------------------------------------------------------------
  // decimal numbers

  function DigitChar(d: nat): char
    requires d < 10
  {
    "0123456789"[d]
  }

  function DigitValue(c: char): nat {
    if '0' <= c <= '9' then c as int - '0' as int else 0
  }

  predicate IsDigit(c: char) {
    '0' <= c <= '9'
  }

  /** The decimal rendering of a natural number, as `${n}` writes an array length. */
  function DecimalString(n: nat): (s: string)
    ensures |s| >= 1
    ensures forall i :: 0 <= i < |s| ==> IsDigit(s[i])
    ensures |s| > 1 ==> s[0] != '0'
  {
    if n < 10 then [DigitChar(n)] else DecimalString(n / 10) + [DigitChar(n % 10)]
  }

  /** Reads a string of decimal digits back as a number. */
  function DecimalValue(s: string): nat {
    if s == [] then 0 else DecimalValue(s[..|s| - 1]) * 10 + DigitValue(s[|s| - 1])
  }

  /** The decimal rendering reads back as the number it renders. */
  lemma {:induction false} DecimalRoundTrip(n: nat)
    ensures DecimalValue(DecimalString(n)) == n
  {
    var s := DecimalString(n);
    if n < 10 {
      assert s[..|s| - 1] == [];
      DigitRoundTrip(n);
    } else {
      DecimalRoundTrip(n / 10);
      assert s[..|s| - 1] == DecimalString(n / 10);
      DigitRoundTrip(n % 10);
      assert DecimalValue(s) == (n / 10) * 10 + n % 10;
    }
  }

  /** A digit reads back as its value. */
  lemma DigitRoundTrip(d: nat)
    requires d < 10
    ensures DigitValue(DigitChar(d)) == d
  {
  }

  /** Different numbers render differently. */
  lemma DecimalStringInjective(m: nat, n: nat)
    requires DecimalString(m) == DecimalString(n)
    ensures m == n
  {
    DecimalRoundTrip(m);
    DecimalRoundTrip(n);
  }
}

=== FILE: records.dfy ===
/**
 * The records the reconciler passes around.  JavaScript objects are open
 * records built by spreading; here each shape that occurs is its own datatype.
 */
module Records {
  import opened Js

  /**
   * The inner `friend` object: a roster row, or a user from the live graph (a
   * current friend, a pending friend or a search result).
   * - `displayName`: the Epic display name;
   * - `privateDisplayName`: the `_displayName` property that live users carry;
   * - `externalAuths`: platform tag to `externalDisplayName`; an entry that is
   *   missing its object, or whose object has no name, is `None`;
   * - `direction`: "INCOMING" or "OUTGOING" on pending friends;
   * - `mutualFriends`: the mutual-friend count on search results.
   */
  datatype Profile = Profile(
    displayName: Option<string>,
    privateDisplayName: Option<string>,
    externalAuths: map<string, Option<string>>,
    direction: Option<string>,
    mutualFriends: Option<int>)

  /** `{ id, friend }`: a profile with its canonical id. */
  datatype Entry = Entry(id: Option<string>, friend: Profile)

  /**
   * `{ ...entry, status }` after reconciliation (reason absent), or
   * `{ ...entry, status, reason }` after a command ran on the entry.
   */
  datatype Tagged = Tagged(entry: Entry, status: Status, reason: Option<string>)

  /**
   * The status strings the program writes and reads, one constructor each;
   * `Name` gives the string itself, which is also the grouping key.
   */
  datatype Status =
    | Missing | Pending | Existing | Current
    | PendingIncoming | PendingOutgoing | Skipped | Possible
  {
    function Name(): string {
      match this
      case Missing => "MISSING"
      case Pending => "PENDING"
      case Existing => "EXISTING"
      case Current => "CURRENT"
      case PendingIncoming => "PENDING_INCOMING"
      case PendingOutgoing => "PENDING_OUTGOING"
      case Skipped => "SKIPPED"
      case Possible => "POSSIBLE"
    }
  }

  function StatusOf(t: Tagged): Status {
    t.status
  }

  /** A remote call that settles: resolves, or rejects with an error of the given name. */
  datatype CallReply = Resolved | Rejected(name: string)

  /** What `client.searchProfiles(prefix)` does: returns users, or throws. */
  datatype SearchReply = Results(users: seq<Profile>) | Thrown(error: string)
}

=== FILE: summaries.dfy ===
/**
 * lib/util/summaries.mjs: the status titles and the one-line count summaries
 * "TITLE n | TITLE n | ...".  The tables drawn with cli-table are not part of
 * this model.
 */
module Summaries {
  import opened Js
  import opened Records
  import opened Common

  /** The titles of the `status` table (its icons only decorate the tables). */
  const Titles: map<Status, string> := map[
    Current := "CURRENT",
    Missing := "MISSING",
    PendingIncoming := "INCOMING",
    PendingOutgoing := "OUTGOING",
    Possible := "TOTAL",
    Skipped := "ERROR"]

  /** `getTitle`: the title the table gives a key, or the key itself when it has none. */
  function GetTitle(key: Status): (title: string)
    ensures key in Titles ==> title == Titles[key]
    ensures key !in Titles ==> title == key.Name()
    ensures title != ""
  {
    if key in Titles && Titles[key] != "" then Titles[key] else key.Name()
  }

  /** Every status's title: the six in the table are renamed, PENDING and EXISTING come back verbatim. */
  lemma GetTitleTable()
    ensures GetTitle(Current) == "CURRENT" && GetTitle(Missing) == "MISSING"
    ensures GetTitle(PendingIncoming) == "INCOMING" && GetTitle(PendingOutgoing) == "OUTGOING"
    ensures GetTitle(Possible) == "TOTAL" && GetTitle(Skipped) == "ERROR"
    ensures GetTitle(Pending) == Pending.Name() == "PENDING"
    ensures GetTitle(Existing) == Existing.Name() == "EXISTING"
  {
  }

  /** `${title} ${count}`. */
  function Item(title: string, count: nat): string {
    title + " " + DecimalString(count)
  }

  /** `${getTitle(key)} ${len(data[key])}`: a missing key counts 0. */
  function SummaryItem<T>(key: Status, data: map<Status, seq<T>>): string {
    Item(GetTitle(key), Len(Lookup(data, key)))
  }

  /** The items of `summary(keys, data)`, one per key, in key order. */
  function Items<T>(keys: seq<Status>, data: map<Status, seq<T>>): (items: seq<string>)
    ensures |items| == |keys|
  {
    seq(|keys|, i requires 0 <= i < |keys| => SummaryItem(keys[i], data))
  }

  /** `summary(keys, data)`: the items joined by " | ". */
  function Summary<T>(keys: seq<Status>, data: map<Status, seq<T>>): (line: string)
    ensures keys == [] ==> line == ""
    ensures |keys| == 1 ==> line == SummaryItem(keys[0], data)
  {
    Join(Items(keys, data), " | ")
  }

  /** A key the data does not hold counts 0: its item is its title followed by " 0". */
  lemma SummaryMissingKey<T>(keys: seq<Status>, data: map<Status, seq<T>>, i: int)
    requires 0 <= i < |keys| && keys[i] !in data
    ensures Items(keys, data)[i] == GetTitle(keys[i]) + " 0"
  {
    assert DecimalString(0) == "0";
  }

  /** The summary of one more key is that key's item, " | ", then the summary of the rest. */
  lemma SummaryCons<T>(key: Status, keys: seq<Status>, data: map<Status, seq<T>>)
    requires keys != []
    ensures Summary([key] + keys, data) == SummaryItem(key, data) + " | " + Summary(keys, data)
  {
    var items := Items([key] + keys, data);
    assert items[1..] == Items(keys, data);
  }

  /**
   * `lightSummary`: always five items, in the order POSSIBLE, CURRENT,
   * PENDING_INCOMING, PENDING_OUTGOING, MISSING, under the titles TOTAL,
   * CURRENT, INCOMING, OUTGOING and MISSING.
   */
  function LightSummary<T>(data: map<Status, seq<T>>): (r: string)
    ensures r == Item("TOTAL", Len(Lookup(data, Possible)))
                 + " | " + (Item("CURRENT", Len(Lookup(data, Current)))
                 + " | " + (Item("INCOMING", Len(Lookup(data, PendingIncoming)))
                 + " | " + (Item("OUTGOING", Len(Lookup(data, PendingOutgoing)))
                 + " | " + Item("MISSING", Len(Lookup(data, Missing))))))
  {
    var keys := [Possible, Current, PendingIncoming, PendingOutgoing, Missing];
    var items := Items(keys, data);
    GetTitleTable();
    assert items == [SummaryItem(Possible, data), SummaryItem(Current, data),
                     SummaryItem(PendingIncoming, data), SummaryItem(PendingOutgoing, data),
                     SummaryItem(Missing, data)];
    var t1, t2, t3 := items[1..], items[2..], items[3..];
    assert t1[1..] == t2 && t2[1..] == t3 && t3[1..] == [items[4]];
    assert Join(t3, " | ") == items[3] + " | " + items[4];
    assert Join(t2, " | ") == items[2] + " | " + Join(t3, " | ");
    assert Join(t1, " | ") == items[1] + " | " + Join(t2, " | ");
    assert Join(items, " | ") == items[0] + " | " + Join(t1, " | ");
    Summary(keys, data)
  }

  /** The number of outcomes with status `s`. */
  function CountStatus(outcomes: seq<Tagged>, s: Status): nat {
    if outcomes == [] then 0
    else CountStatus(outcomes[..|outcomes| - 1], s) + if outcomes[|outcomes| - 1].status == s then 1 else 0
  }

  /** The group of a status has as many records as there are outcomes with that status. */
  lemma {:induction false} WithKeyCount(outcomes: seq<Tagged>, s: Status)
    ensures |WithKey(outcomes, StatusOf, s)| == CountStatus(outcomes, s)
    decreases |outcomes|
  {
    if outcomes != [] {
      var init, last := outcomes[..|outcomes| - 1], outcomes[|outcomes| - 1];
      assert outcomes == init + [last];
      WithKeyCount(init, s);
      WithKeySnoc(init, last, StatusOf, s);
    }
  }

  /** `len(groupByStatus(outcomes)[s])` counts the outcomes with status `s`. */
  lemma GroupCount(outcomes: seq<Tagged>, s: Status)
    ensures Len(Lookup(GroupByStatus(outcomes), s)) == CountStatus(outcomes, s)
  {
    GroupOrEmptyIsWithKey(outcomes, s);
    WithKeyCount(outcomes, s);
  }

  /**
   * `lightExecutionSummary`: the outcomes grouped by status, reporting only
   * how many are PENDING_OUTGOING and how many SKIPPED.
   */
  function LightExecutionSummary(outcomes: seq<Tagged>): (r: string)
    ensures r == Item("OUTGOING", CountStatus(outcomes, PendingOutgoing))
                 + " | " + Item("ERROR", CountStatus(outcomes, Skipped))
  {
    var keys := [PendingOutgoing, Skipped];
    var context := GroupByStatus(outcomes);
    var items := Items(keys, context);
    GetTitleTable();
    assert items == [SummaryItem(PendingOutgoing, context), SummaryItem(Skipped, context)];
    assert items[1..] == [items[1]];
    assert Join(items, " | ") == items[0] + " | " + items[1];
    GroupCount(outcomes, PendingOutgoing);
    GroupCount(outcomes, Skipped);
    Summary(keys, context)
  }

  /**
   * Outcomes of any other status, CURRENT ones from accept among them, leave
   * the execution summary unchanged.
   */
  lemma UncountedOutcome(outcomes: seq<Tagged>, t: Tagged)
    requires t.status != PendingOutgoing && t.status != Skipped
    ensures LightExecutionSummary(outcomes + [t]) == LightExecutionSummary(outcomes)
  {
    assert (outcomes + [t])[..|outcomes + [t]| - 1] == outcomes;
  }

  // ---------------------------------------------------------------------------
  // status column of the tables

  /**
   * `status[itemStatus]` in `generateTableSummary`, as written: the label of
   * the status table, or `undefined` for a status the table lacks (EXISTING
   * and PENDING), on which `const [icon, statusLabel] = ...` throws.
   */
  function StatusLabelAsWritten(s: Status): (title: Option<string>)
    ensures title.Some? <==> s in Titles
    ensures title.Some? ==> title.value == Titles[s]
  {
    if s in Titles then Some(Titles[s]) else None
  }

  /**
   * The status column of `generateTableSummary` as written, row by row:
   * `None` (the TypeError) as soon as one row has a status the table lacks.
   */
  function TableLabelsAsWritten(rows: seq<Tagged>): (labels: Option<seq<string>>)
    ensures labels.None? <==> exists i :: 0 <= i < |rows| && rows[i].status !in Titles
    ensures labels.Some? ==> |labels.value| == |rows|
                             && forall i :: 0 <= i < |rows| ==> labels.value[i] == Titles[rows[i].status]
  {
    if rows == [] then Some([])
    else
      var head := StatusLabelAsWritten(rows[0].status);
      var tail := TableLabelsAsWritten(rows[1..]);
      if head.Some? && tail.Some? then
        Some([head.value] + tail.value)
      else
        assert head.None? ==> rows[0].status !in Titles;
        assert tail.None? ==> exists i :: 1 <= i < |rows| && rows[i].status !in Titles by {
          if tail.None? {
            var j :| 0 <= j < |rows[1..]| && rows[1..][j].status !in Titles;
            assert rows[j + 1] == rows[1..][j];
          }
        }
        None
  }

  /**
   * The status column with every status labelled: the status's title, and
   * for EXISTING and PENDING, which the table lacks, the status's own name,
   * as `getTitle` already does for `summary`.
   */
  function TableLabels(rows: seq<Tagged>): (labels: seq<string>)
    ensures |labels| == |rows|
    ensures forall i :: 0 <= i < |rows| ==> labels[i] == GetTitle(rows[i].status) && labels[i] != ""
  {
    seq(|rows|, i requires 0 <= i < |rows| => GetTitle(rows[i].status))
  }

  /** Where the column as written gets through, the corrected column is the same. */
  lemma TableLabelsAgree(rows: seq<Tagged>)
    ensures TableLabelsAsWritten(rows).Some? ==> TableLabelsAsWritten(rows).value == TableLabels(rows)
  {
  }

  /**
   * The rows `dryrunSummary` tabulates: the MISSING, PENDING and EXISTING
   * groups of the reconciliation, one after the other (the table then sorts
   * them).
   */
  function DryrunRows(findResults: map<Status, seq<Tagged>>): (rows: seq<Tagged>)
    ensures |rows| == |GroupOrEmpty(findResults, Missing)| + |GroupOrEmpty(findResults, Pending)|
                      + |GroupOrEmpty(findResults, Existing)|
  {
    GroupOrEmpty(findResults, Missing) + GroupOrEmpty(findResults, Pending)
    + GroupOrEmpty(findResults, Existing)
  }

  /** The dryrun rows of a reconciliation are its tagged records, rearranged. */
  lemma DryrunRowsPermute(tagged: seq<Tagged>)
    requires forall i :: 0 <= i < |tagged| ==>
               tagged[i].status == Missing || tagged[i].status == Pending || tagged[i].status == Existing
    ensures multiset(DryrunRows(GroupByStatus(tagged))) == multiset(tagged)
  {
    GroupPartitionThree(tagged, Missing, Pending, Existing);
  }

  /** The status column as written fails on a rearrangement exactly when it fails on the original. */
  lemma LabelsAsWrittenPermute(rows: seq<Tagged>, tagged: seq<Tagged>)
    requires multiset(rows) == multiset(tagged)
    ensures TableLabelsAsWritten(rows).None? <==> TableLabelsAsWritten(tagged).None?
  {
    if i :| 0 <= i < |tagged| && tagged[i].status !in Titles {
      assert tagged[i] in multiset(rows);
      var j :| 0 <= j < |rows| && rows[j] == tagged[i];
    }
    if j :| 0 <= j < |rows| && rows[j].status !in Titles {
      assert rows[j] in multiset(tagged);
      var i :| 0 <= i < |tagged| && tagged[i] == rows[j];
    }
  }

  /**
   * Over a reconciliation, the status column as written throws exactly when
   * some record is not MISSING (the table has no EXISTING or PENDING entry).
   */
  lemma DryrunLabelsAsWritten(tagged: seq<Tagged>)
    requires forall i :: 0 <= i < |tagged| ==>
               tagged[i].status == Missing || tagged[i].status == Pending || tagged[i].status == Existing
    ensures TableLabelsAsWritten(DryrunRows(GroupByStatus(tagged))).None? <==>
              exists i :: 0 <= i < |tagged| && tagged[i].status != Missing
  {
    DryrunRowsPermute(tagged);
    LabelsAsWrittenPermute(DryrunRows(GroupByStatus(tagged)), tagged);
    ReconciledLabelsAsWritten(tagged);
  }

  /** On records tagged MISSING, PENDING or EXISTING, only the last two lack a title. */
  lemma ReconciledLabelsAsWritten(tagged: seq<Tagged>)
    requires forall i :: 0 <= i < |tagged| ==>
               tagged[i].status == Missing || tagged[i].status == Pending || tagged[i].status == Existing
    ensures TableLabelsAsWritten(tagged).None? <==> exists i :: 0 <= i < |tagged| && tagged[i].status != Missing
  {
    assert Missing in Titles && Pending !in Titles && Existing !in Titles;
  }

  /** A sequence with the elements of a singleton is that singleton. */
  lemma SingletonPermute(rows: seq<Tagged>, t: Tagged)
    requires multiset(rows) == multiset([t])
    ensures rows == [t]
  {
    assert |rows| == |multiset(rows)| == 1;
    assert rows[0] in multiset([t]);
  }

  /** A reconciliation of one record tabulates that record alone. */
  lemma SingleRowTable(t: Tagged)
    requires t.status == Missing || t.status == Pending || t.status == Existing
    ensures DryrunRows(GroupByStatus([t])) == [t]
  {
    DryrunRowsPermute([t]);
    SingletonPermute(DryrunRows(GroupByStatus([t])), t);
  }

  /** One row is labelled with its title; as written, it throws exactly when the table lacks its status. */
  lemma SingleRowLabels(t: Tagged)
    ensures TableLabels([t]) == [GetTitle(t.status)]
    ensures TableLabelsAsWritten([t]).None? <==> t.status !in Titles
  {
    assert [t][0] == t;
  }
}
